=== FILE: README.md ===
# Phone number finder: a Dafny model of its text-processing core

The phone crawler reads a CSV file of property-management companies, visits
each website and records one German telephone number per company. This
project models the part of `PhoneNumberFinder` that turns page text into that
number:

- the **pattern library**: fifteen regular expressions for German number
  shapes. They are modelled as sequences of atoms: literals, bounded digit
  groups `\d{m,n}`, separator stars `\s*` and `[\s\-]*`, and the class
  `[567]` (module `Patterns`);
- **`clean_phone_number`**: delete label tokens, strip, rewrite `+49(0)` to
  `+49`, collapse whitespace runs, and keep the result only if a pattern
  matches at its start (module `Normalizer`);
- **`extract_phone_from_text`** after its two regex passes. The label-pass
  captures and the structural matches are inputs. Each candidate is cleaned
  and fax-tested, and the results are de-duplicated in first-occurrence order
  (module `Extractor`);
- **`select_best_phone`**: the Python `set` iteration order is a parameter
  that may be any listing of the distinct numbers (module `Selector`);
- the keyword filter of **`search_contact_pages`** over anchors whose resolved
  URL is given (module `Navigator`).

`Optional`, `Seqs` and `Text` hold the supporting definitions. They give
Python's `str.strip`, `str.lower` and whitespace set, and an
"append unless already present" de-duplication. `Scenarios` works through
concrete inputs.

`re.match` is modelled twice. `Patterns.Search` is an executable greedy
search with backtracking. `Patterns.PrefixMatches` is the declarative
statement "some prefix of the string lies in the pattern's language".
`Patterns.SearchIff` proves the two agree.

## Behaviour of the code worth knowing

- `+49(0)721-91225-35`, the example the pattern list gives for its second
  pattern, cleans to `+49721-91225-35`. The rewrite deletes
  `(0)` and inserts no space (`Scenarios.TrunkExample`).
- `clean_phone_number` is not idempotent. Each pass rewrites only the `+49(0)`
  tokens present before it. So `089 1234567 +49(0)(0)` cleans to
  `089 1234567 +49(0)`, which cleans to `089 1234567 +49`
  (`Scenarios.CleanNotIdempotent`). Cleaning is stable on results that hold
  no label or trunk token (`Normalizer.CleanStable`).
- The comment at line 110 says phone numbers are preferred over fax numbers,
  but the fax test looks only at the candidate string. A candidate consists of
  digits, whitespace and `+-()/`, so the test never removes anything
  (`Extractor.FaxTestNeverFires`). In a page reading `Fax: 089-123-9999`,
  the structural pass finds `089-123-9999`, and that number is reported
  (`Scenarios.FaxNumberReported`).

## Model

| member | source | states |
|---|---|---|
| Patterns.SearchIff | phone_number_finder.py:76 | the greedy backtracking search of a pattern succeeds exactly when some prefix of the string lies in the pattern's language |
| Patterns.LibrarySearchIff | phone_number_finder.py:75-77 | the validation loop accepts a string exactly when some library pattern prefix-matches it |
| Patterns.LibraryShape | phone_number_finder.py:38-57 | every library pattern is non-empty, its first atom cannot match the empty string, and all its literals and classes use phone characters only |
| Patterns.LibraryMatchOverPhoneChars | phone_number_finder.py:38-57 | a whole match of any library pattern, which is what the structural pass collects, contains only digits, whitespace and `+-()/` |
| Patterns.LibraryMatchNonEmpty | phone_number_finder.py:75-77 | no string the validation accepts is empty |
| Text.Strip | phone_number_finder.py:66 | the result has no whitespace at either end and is the slice of the input left after cutting whitespace from both ends |
| Text.StripKeepsText | phone_number_finder.py:66 | stripping removes whitespace only: the non-whitespace characters stay the same and in the same order |
| Text.StripKeepsWords | phone_number_finder.py:66 | stripping keeps the words of the text |
| Normalizer.LabelsExclusive | phone_number_finder.py:65 | at any position at most one label alternative matches, ignoring case, so the order of the alternation does not matter |
| Normalizer.StripLabels | phone_number_finder.py:65 | the label deletion never lengthens the text |
| Normalizer.StripLabelsFixpoint | phone_number_finder.py:65 | text without a label token passes through label deletion unchanged |
| Normalizer.LabelTokenDeleted | phone_number_finder.py:65 | a leading label token, in any letter case, is deleted and the rest is processed as if it were absent |
| Normalizer.StripLabelsKeep | phone_number_finder.py:65 | where no label token starts, the first character is kept and the deletion goes on from the next position |
| Normalizer.StripLabelsCopy | phone_number_finder.py:65 | text whose characters lower-case to neither `t` nor `p` is copied, and label tokens after it are still deleted, since the substitution scans the whole string |
| Normalizer.PhoneTextHasNoLabel | phone_number_finder.py:65 | text made of phone characters holds no label token, because every label starts with a letter |
| Normalizer.CollapseTrunk | phone_number_finder.py:69 | the trunk rewrite never lengthens the text, keeps its first character, and keeps a non-whitespace last character non-whitespace |
| Normalizer.CollapseTrunkFixpoint | phone_number_finder.py:69 | text without a `+49\s*(0)` token passes through the trunk rewrite unchanged |
| Normalizer.CollapseTrunkPlusFree | phone_number_finder.py:69 | text before the first `+` is copied unchanged by the trunk rewrite |
| Normalizer.TrunkUnique | phone_number_finder.py:69 | at most one `+49\s*\(0\)` token starts at a position, because the whitespace run ends at the `(` |
| Normalizer.TrunkTokenDeleted | phone_number_finder.py:69 | a `+49\s*\(0\)` token at the front, with any whitespace before the `(`, becomes `+49` and the rewrite resumes after the token |
| Normalizer.CollapseTrunkKeep | phone_number_finder.py:69 | where no token starts, the first character is kept and the rewrite goes on from the next position |
| Normalizer.CollapseSpaces | phone_number_finder.py:72 | the result holds only single plain spaces as whitespace and no two in a row; it has the same words as the input in the same order (`Text.Words`, Python's `str.split()`) and the same non-whitespace characters; it starts and ends with a space exactly where the input starts or ends with whitespace, keeps a non-whitespace first character, and is no longer than the input |
| Normalizer.CollapsedUnique | phone_number_finder.py:72 | the contract of the whitespace collapse admits one result only: any text meeting it is the collapse's result |
| Normalizer.CollapseSpacesFixpoint | phone_number_finder.py:72 | single-spaced text passes through the whitespace collapse unchanged |
| Normalizer.Normalize | phone_number_finder.py:64-72 | after the four rewrites the text has no surrounding whitespace, only single spaces, and is no longer than the input; for input without label or trunk tokens only whitespace changes: the words and the non-whitespace characters stay the same and in order |
| Normalizer.TokenFreeKeepsText | phone_number_finder.py:65-72 | the four rewrites of text without label or trunk tokens keep its words and its non-whitespace characters in order |
| Normalizer.NormalizeFixpoint | phone_number_finder.py:65-72 | tidy text without label or trunk tokens is left unchanged by the rewrites |
| Normalizer.Clean | phone_number_finder.py:59-79 | `None` for the empty string; a result exactly when a library pattern prefix-matches the normalised text, and then that text, which is tidy and non-empty |
| Normalizer.CleanFixpoint | phone_number_finder.py:65-77 | a tidy string without label or trunk tokens that a pattern prefix-matches cleans to itself |
| Normalizer.CleanStable | phone_number_finder.py:59-79 | cleaning a cleaned number again returns it, provided the first pass left no label or trunk token behind |
| Extractor.KeepLabelChars | phone_number_finder.py:96 | the filter keeps only digits, whitespace and `+-()`, and the result is no longer than the capture |
| Extractor.KeepLabelCharsFixpoint | phone_number_finder.py:96 | a capture made of those characters passes through the filter unchanged |
| Extractor.LabelPhone | phone_number_finder.py:96 | a filtered and stripped capture has no surrounding whitespace and only label characters; a capture made of label characters becomes exactly its stripped form |
| Extractor.LabelCandidates | phone_number_finder.py:92-98 | the label pass yields at most one candidate per capture, each non-empty, trimmed and made of digits, whitespace and `+-()`; a string is a candidate exactly when it is the non-empty filtered and stripped form of some capture |
| Extractor.LabelCandidatesConcat | phone_number_finder.py:94-98 | the candidates of two capture lists in sequence are the candidates of the first followed by those of the second, so capture order and repeats are kept |
| Extractor.LabelCandidatesSingle | phone_number_finder.py:94-98 | one capture contributes exactly its filtered, stripped form, or nothing when that is empty |
| Extractor.LabelCandidatesFixpoint | phone_number_finder.py:94-98 | captures that already have that shape become the candidates unchanged and in order |
| Extractor.Accepted | phone_number_finder.py:108-112 | a candidate contributes exactly when it cleans to a value and its lower-cased text does not contain `fax`; it contributes the cleaned value, which a library pattern prefix-matches and which is tidy; for a candidate made of phone characters the fax test never rejects, so the outcome is exactly the cleaning result |
| Extractor.Extract | phone_number_finder.py:81-114 | the result has no duplicates, and a value is in it exactly when some candidate is accepted with that value |
| Extractor.ExtractPhones | phone_number_finder.py:105-114 | the loop over the candidates returns the duplicate-free list of accepted values described by `Extract` |
| Extractor.FaxTestNeverFires | phone_number_finder.py:111 | the lower-cased form of text made of phone characters never contains `fax` |
| Extractor.CandidateChars | phone_number_finder.py:92-103 | every candidate consists of phone characters when the structural matches do |
| Extractor.ExtractIsCleanedCandidates | phone_number_finder.py:81-114 | with structural matches made of phone characters, a value is extracted exactly when some raw candidate cleans to it |
| Extractor.LabelValuesFirst | phone_number_finder.py:92-114 | a value some label candidate yields comes before every value that only structural candidates yield |
| Extractor.ExtractOrder | phone_number_finder.py:105-112 | extracted values appear in the order of their first occurrence among the accepted values |
| Selector.EnumerationExists | phone_number_finder.py:202 | every list has an admissible `set` iteration order: its distinct values in order of first occurrence |
| Selector.FirstLandline | phone_number_finder.py:211-214 | returns nothing exactly when every number is mobile; otherwise a non-mobile number of the order, with only mobile numbers before it |
| Selector.SelectBest | phone_number_finder.py:196-217 | `None` exactly for an empty list; otherwise an element of the list, mobile only when all elements are, and with only mobile numbers before it in the iteration order; a mobile result is the first number of the iteration order |
| Selector.SelectOutcomes | phone_number_finder.py:202-217 | over all iteration orders, a number can be selected exactly when it is in the list and is a landline number or all numbers are mobile |
| Navigator.ContactLinks | phone_number_finder.py:116-131 | the result has no duplicates, and a URL is in it exactly when some anchor whose lower-cased href or text contains a contact keyword resolves to it |
| Navigator.ContactLinksOrder | phone_number_finder.py:121-129 | the URLs appear in the order of their first contact anchor |
| Scenarios.TrunkExample | phone_number_finder.py:59-79 | `+49(0)721-91225-35` cleans to `+49721-91225-35` |
| Scenarios.SpacedTrunkRewrite | phone_number_finder.py:69 | text that starts with `+49 (0)` and holds no other `+`, such as `+49 (0)721`, becomes `+49` followed by the rest: the whitespace goes with the token |
| Scenarios.LabelAfterTextExample | phone_number_finder.py:65 | `0tel:` becomes `0`: a label after other text is deleted |
| Scenarios.CleanNotIdempotent | phone_number_finder.py:59-79 | some phone cleans to a value that cleans to something else |
| Scenarios.FirstClean | phone_number_finder.py:59-79 | `089 1234567 +49(0)(0)` cleans to `089 1234567 +49(0)` |
| Scenarios.SecondClean | phone_number_finder.py:59-79 | `089 1234567 +49(0)` cleans to `089 1234567 +49` |
| Scenarios.FaxNumberClean | phone_number_finder.py:59-79 | `089-123-9999` cleans to itself |
| Scenarios.FaxNumberReported | phone_number_finder.py:101-112 | the structural candidate `089-123-9999` found after `Fax:` is extracted |
| Scenarios.PrefersLandlineExample | phone_number_finder.py:211-214 | of `089 1234567` and `0151 1234567`, the landline number is selected in every iteration order |
| Scenarios.MobileFallbackExample | phone_number_finder.py:211-217 | of `0151 1234567` and `0171 7654321`, both mobile, the first number of the iteration order is selected |

## Left out

- `scrape_website` (lines 133-194) is not modelled. It consists of HTTP requests, SSL settings, the https-to-http retry, HTML-to-text conversion and sleeping.
- `process_csv`, `save_results`, `main` and the logging set-up are not modelled. They consist of CSV and file I/O, checkpointing, progress output and interrupt handling.
- The two `re.findall` passes of `extract_phone_from_text` (lines 87-103) are not modelled. The label-pass captures and the structural matches are inputs of `Extractor.Extract` and `Extractor.ExtractPhones`. The structural matches are assumed to consist of phone characters only where a lemma needs it. Every whole match of a library pattern does (`Patterns.LibraryMatchOverPhoneChars`).
- `re.IGNORECASE` and `str.lower` fold only the ASCII and Latin-1 capital letters.
- `\d` is the ASCII digits only. Python also accepts other Unicode decimal digits.
- Whitespace is the set of characters Python's `str.isspace` accepts. `\s` and `str.strip` share that set.
- BeautifulSoup link extraction and `urljoin` are not modelled. Each anchor carries its href, its text and the URL `urljoin` resolves it to.
- `priority_keywords` in `select_best_phone` is built but never read, so it is not modelled.
- The concrete iteration order of a Python `set` is not fixed. `Selector.SelectBest` takes any enumeration of the distinct numbers.
- Normalizer.Normalize: its contract relates the output's words and non-whitespace characters to the input's only for input without label or trunk tokens. Other input goes through the four steps in turn. Each step's result is fixed: `Strip` and `CollapseSpaces` by their contracts, and `StripLabels` and `CollapseTrunk` by the lemmas listed below. No lemma relates the output of `Normalize` to such input directly.
- Normalizer.StripLabels: its own contract states only that the text does not grow. The result is fixed by lemmas instead, by induction on the length of the text. `StripLabels("")` is `""`. `LabelTokenDeleted` covers a label at the front, and `StripLabelsKeep` covers a front with no label. `StripLabelsFixpoint` and `StripLabelsCopy` are consequences for label-free text and for a label after other text.
- Normalizer.CollapseTrunk: its own contract states only the length bound and the two ends. The result is fixed by lemmas instead, by induction on the length of the text. The empty text stays empty. `TrunkTokenDeleted` covers a token at the front with any whitespace inside, and `CollapseTrunkKeep` covers a front with no token. `CollapseTrunkFixpoint` and `CollapseTrunkPlusFree` are consequences for token-free text and for text before the first `+`.

=== FILE: extractor.dfy ===
/**
 * `extract_phone_from_text` after its two regex passes. The label pass
 * yields raw captures (the text after "Tel.", "Telefon:", ...); the
 * structural pass yields every `re.findall` match of every library pattern.
 * Both are taken as given sequences: this module models what the finder does
 * with them: filter and strip the captures, clean every candidate, drop
 * failures and fax candidates, and keep each cleaned value once, at its first
 * occurrence.
 */
module Extractor {
  import opened Optional
  import opened Text
  import opened Seqs
  import opened Patterns
  import opened Normalizer

  /** Characters a label capture keeps: `[\d\s\-\(\)\+]`. */
  predicate LabelChar(c: char) {
    IsDigit(c) || IsSpace(c) || c == '-' || c == '(' || c == ')' || c == '+'
  }

  predicate LabelText(s: string) {
    forall k :: 0 <= k < |s| ==> LabelChar(s[k])
  }

  /** What a label candidate looks like: non-empty, trimmed, label characters only. */
  predicate LabelCandidate(phone: string) {
    |phone| > 0 && Trimmed(phone) && LabelText(phone)
  }

  /** `re.sub(r'[^\d\s\-\(\)\+]', '', capture)`: drops every other character, keeping order. */
  function KeepLabelChars(s: string): (r: string)
    ensures LabelText(r)
    ensures |r| <= |s|
    decreases |s|
  {
    if |s| == 0 then ""
    else
      var rest := KeepLabelChars(s[1..]);
      if LabelChar(s[0]) then [s[0]] + rest else rest
  }

  /** A capture made of label characters only is kept whole. */
  lemma {:induction false} KeepLabelCharsFixpoint(s: string)
    requires LabelText(s)
    ensures KeepLabelChars(s) == s
    decreases |s|
  {
    if |s| > 0 {
      KeepLabelCharsFixpoint(s[1..]);
      assert s == [s[0]] + s[1..];
    }
  }

  /**
   * A capture after `re.sub(r'[^\d\s\-\(\)\+]', '', capture).strip()`. A
   * capture the regex class can produce only loses its surrounding whitespace.
   */
  function LabelPhone(capture: string): (phone: string)
    ensures Trimmed(phone) && LabelText(phone)
    ensures LabelText(capture) ==> phone == Strip(capture)
  {
    var kept := KeepLabelChars(capture);
    assert LabelText(capture) ==> kept == capture by {
      if LabelText(capture) {
        KeepLabelCharsFixpoint(capture);
      }
    }
    StripLabelText(kept);
    Strip(kept)
  }

  /** Stripping keeps a slice, so label text stays label text. */
  lemma StripLabelText(kept: string)
    requires LabelText(kept)
    ensures LabelText(Strip(kept))
  {
    var phone := Strip(kept);
    var a, b :| 0 <= a <= b <= |kept| && phone == kept[a..b] && AllSpace(kept[..a]) && AllSpace(kept[b..]);
    forall k | 0 <= k < |phone| ensures LabelChar(phone[k]) {
      assert phone[k] == kept[a + k];
    }
  }

  /** What one capture contributes to the label pass: its filtered, stripped form unless that is empty. */
  function LabelOutcome(capture: string): (r: Option<string>)
    ensures r.Some? ==> LabelCandidate(r.value)
  {
    var phone := LabelPhone(capture);
    if phone != "" then Some(phone) else None
  }

  /**
   * The label-pass candidates: the captures' outcomes in capture order, empty
   * ones dropped. A string is a candidate exactly when some capture yields it.
   */
  function LabelCandidates(captures: seq<string>): (r: seq<string>)
    ensures |r| <= |captures|
    ensures forall i :: 0 <= i < |r| ==> LabelCandidate(r[i])
    ensures forall p :: p in r <==> p != "" && exists i :: 0 <= i < |captures| && LabelPhone(captures[i]) == p
  {
    var r := FilterMap(LabelOutcome, captures);
    FilterMapLength(LabelOutcome, captures);
    forall i | 0 <= i < |r| ensures LabelCandidate(r[i]) {
      OutcomeShape(captures, r[i]);
    }
    forall p ensures p in r <==> p != "" && exists i :: 0 <= i < |captures| && LabelPhone(captures[i]) == p {
      OutcomeMember(captures, p);
    }
    r
  }

  lemma OutcomeShape(captures: seq<string>, p: string)
    requires p in FilterMap(LabelOutcome, captures)
    ensures LabelCandidate(p)
  {
    FilterMapFrom(LabelOutcome, captures, p);
  }

  lemma OutcomeMember(captures: seq<string>, p: string)
    ensures p in FilterMap(LabelOutcome, captures) <==>
            p != "" && exists i :: 0 <= i < |captures| && LabelPhone(captures[i]) == p
  {
    FilterMapMember(LabelOutcome, captures, p);
    if p != "" && exists i :: 0 <= i < |captures| && LabelPhone(captures[i]) == p {
      var i :| 0 <= i < |captures| && LabelPhone(captures[i]) == p;
      assert LabelOutcome(captures[i]) == Some(p);
    }
  }

  /** The label pass works capture by capture: the candidates of `a + b` are those of `a`, then those of `b`. */
  lemma LabelCandidatesConcat(a: seq<string>, b: seq<string>)
    ensures LabelCandidates(a + b) == LabelCandidates(a) + LabelCandidates(b)
  {
    FilterMapConcat(LabelOutcome, a, b);
  }

  /** One capture yields its filtered, stripped form, or nothing when that is empty. */
  lemma LabelCandidatesSingle(c: string)
    ensures LabelCandidates([c]) == if LabelPhone(c) == "" then [] else [LabelPhone(c)]
  {
    assert [c][..0] == [];
    assert FilterMap(LabelOutcome, [c]) == FilterMap(LabelOutcome, [c][..0]) + OptionToSeq(LabelOutcome(c));
  }

  /** A capture that is already a label candidate is its own filtered, stripped form. */
  lemma LabelPhoneFixpoint(capture: string)
    requires LabelCandidate(capture)
    ensures LabelPhone(capture) == capture
  {
    KeepLabelCharsFixpoint(capture);
    StripTrimmed(capture);
  }

  /** Captures that are already non-empty, trimmed and made of label characters pass through unchanged. */
  lemma {:induction false} LabelCandidatesFixpoint(captures: seq<string>)
    requires forall i :: 0 <= i < |captures| ==> LabelCandidate(captures[i])
    ensures LabelCandidates(captures) == captures
    decreases |captures|
  {
    if |captures| > 0 {
      var n := |captures| - 1;
      var init, last := captures[..n], captures[n];
      assert forall i :: 0 <= i < n ==> init[i] == captures[i];
      LabelCandidatesFixpoint(init);
      LabelPhoneFixpoint(last);
      assert LabelCandidates(captures) == LabelCandidates(init) + [last];
      SplitLast(captures);
    }
  }

  /** The raw candidate list: label-pass candidates first, then the structural matches. */
  function Candidates(captures: seq<string>, structural: seq<string>): seq<string> {
    LabelCandidates(captures) + structural
  }

  /** The finder's fax test: `'fax' in phone.lower()` on the raw candidate. */
  predicate MentionsFax(phone: string) {
    Contains(Lower(phone), "fax")
  }

  /** The value a candidate contributes, if any: its cleaned form, unless it fails validation or mentions fax. */
  function Accepted(phone: string): (r: Option<string>)
    ensures r.Some? <==> Clean(phone).Some? && !MentionsFax(phone)
    ensures r.Some? ==> r == Clean(phone)
    ensures r.Some? ==> MatchesLibrary(r.value) && Tidy(r.value)
    ensures PhoneText(phone) ==> r == Clean(phone)
  {
    assert PhoneText(phone) ==> !MentionsFax(phone) by {
      if PhoneText(phone) {
        FaxTestNeverFires(phone);
      }
    }
    var cleaned := Clean(phone);
    if cleaned.Some? && cleaned.value != "" && !MentionsFax(phone) then cleaned else None
  }

  /** The accepted values of `raw`, in order, duplicates included. */
  function Kept(raw: seq<string>): seq<string> {
    FilterMap(Accepted, raw)
  }

  /**
   * The result of `extract_phone_from_text`: every accepted value once, in
   * the order of first occurrence among the candidates.
   */
  function Extract(captures: seq<string>, structural: seq<string>): (r: seq<string>)
    ensures NoDups(r)
    ensures forall v :: v in r <==> exists c :: c in Candidates(captures, structural) && Accepted(c) == Some(v)
  {
    var raw := Candidates(captures, structural);
    var kept := Kept(raw);
    var r := Dedup(kept);
    assert forall v :: v in r <==> exists c :: c in raw && Accepted(c) == Some(v) by {
      forall v ensures v in r <==> exists c :: c in raw && Accepted(c) == Some(v) {
        FilterMapMember(Accepted, raw, v);
        assert v in r <==> v in kept;
      }
    }
    r
  }

  /** The finder's loop: clean each candidate, append it unless invalid, already present, or a fax. */
  method ExtractPhones(captures: seq<string>, structural: seq<string>) returns (phones: seq<string>)
    ensures phones == Extract(captures, structural)
    ensures NoDups(phones)
  {
    var raw := LabelCandidates(captures) + structural;
    phones := [];
    var i := 0;
    while i < |raw|
      invariant 0 <= i <= |raw|
      invariant phones == Dedup(Kept(raw[..i]))
    {
      var phone := raw[i];
      var cleaned := Clean(phone);
      FilterMapStep(Accepted, raw, i);
      if cleaned.Some? && cleaned.value != "" && cleaned.value !in phones {
        if !MentionsFax(phone) {
          DedupSnoc(Kept(raw[..i]), cleaned.value);
          phones := phones + [cleaned.value];
        } else {
          assert Kept(raw[..i + 1]) == Kept(raw[..i]);
        }
      } else if cleaned.Some? && cleaned.value != "" && !MentionsFax(phone) {
        DedupSnoc(Kept(raw[..i]), cleaned.value);
      } else {
        assert Kept(raw[..i + 1]) == Kept(raw[..i]);
      }
      i := i + 1;
    }
    assert raw[..|raw|] == raw;
  }

  /** No phone character lower-cases to a letter, so a candidate made of them never mentions fax. */
  lemma FaxTestNeverFires(phone: string)
    requires PhoneText(phone)
    ensures !MentionsFax(phone)
  {
    forall i | 0 <= i <= |phone| ensures !OccursAt(Lower(phone), "fax", i) {
      if i < |phone| {
        assert Lower(phone)[i] == LowerChar(phone[i]) != 'f';
      }
    }
  }

  /** Every candidate consists of phone characters when the structural matches do. */
  lemma CandidateChars(captures: seq<string>, structural: seq<string>, c: string)
    requires forall i :: 0 <= i < |structural| ==> PhoneText(structural[i])
    requires c in Candidates(captures, structural)
    ensures PhoneText(c)
  {
    var labelled := LabelCandidates(captures);
    assert c in labelled || c in structural;
    if c in labelled {
      var i :| 0 <= i < |labelled| && labelled[i] == c;
      assert LabelText(c);
      forall k | 0 <= k < |c| ensures PhoneChar(c[k]) {
        LabelCharIsPhoneChar(c[k]);
      }
    } else {
      var i :| 0 <= i < |structural| && structural[i] == c;
    }
  }

  lemma LabelCharIsPhoneChar(c: char)
    requires LabelChar(c)
    ensures PhoneChar(c)
  {
  }

  /**
   * With structural candidates made of phone characters (as every whole
   * match of a library pattern is), the fax test never removes anything:
   * a value is extracted exactly when some candidate cleans to it.
   */
  lemma ExtractIsCleanedCandidates(captures: seq<string>, structural: seq<string>)
    requires forall i :: 0 <= i < |structural| ==> PhoneText(structural[i])
    ensures forall v :: v in Extract(captures, structural) <==>
                        exists c :: c in Candidates(captures, structural) && Clean(c) == Some(v)
  {
    var raw := Candidates(captures, structural);
    var r := Extract(captures, structural);
    forall v ensures v in r <==> exists c :: c in raw && Clean(c) == Some(v) {
      if v in r {
        var c :| c in raw && Accepted(c) == Some(v);
        assert Clean(c) == Some(v);
      }
      if exists c :: c in raw && Clean(c) == Some(v) {
        var c :| c in raw && Clean(c) == Some(v);
        CandidateChars(captures, structural, c);
        FaxTestNeverFires(c);
        assert Accepted(c) == Some(v);
      }
    }
  }

  /** Values a label candidate yields come before values only structural candidates yield. */
  lemma LabelValuesFirst(captures: seq<string>, structural: seq<string>, i: nat, j: nat)
    requires i < |Extract(captures, structural)| && j < |Extract(captures, structural)|
    requires Extract(captures, structural)[i] in Kept(LabelCandidates(captures))
    requires Extract(captures, structural)[j] !in Kept(LabelCandidates(captures))
    ensures i < j
  {
    var a := LabelCandidates(captures);
    FilterMapConcat(Accepted, a, structural);
    DedupConcatOrder(Kept(a), Kept(structural), i, j);
  }

  /** The extracted values keep the order of their first occurrence among the accepted values. */
  lemma ExtractOrder(captures: seq<string>, structural: seq<string>, i: nat, j: nat)
    requires i < j < |Extract(captures, structural)|
    ensures var kept := Kept(Candidates(captures, structural));
            var r := Extract(captures, structural);
            r[i] in kept && r[j] in kept && IndexOf(kept, r[i]) < IndexOf(kept, r[j])
  {
    DedupOrder(Kept(Candidates(captures, structural)));
  }
}

=== FILE: navigator.dfy ===
/**
 * `search_contact_pages`: the links of a page whose target or text mentions
 * a contact keyword, each resolved URL once, in page order. The anchors come
 * from the parsed page, and each carries the URL `urljoin` resolves its
 * href to; parsing and URL resolution are outside the model.
 */
module Navigator {
  import opened Optional
  import opened Text
  import opened Seqs

  /** An anchor with an href: the href, its text, and the absolute URL the href resolves to. */
  datatype Link = Link(href: string, text: string, url: string)

  const ContactKeywords: seq<string> := ["kontakt", "contact", "impressum", "imprint", "about", "\U{FC}ber"]

  /** The lower-cased href or text contains some contact keyword. */
  predicate IsContactLink(link: Link) {
    exists k :: 0 <= k < |ContactKeywords| &&
      (Contains(Lower(link.href), ContactKeywords[k]) || Contains(Lower(link.text), ContactKeywords[k]))
  }

  function ContactUrl(link: Link): Option<string> {
    if IsContactLink(link) then Some(link.url) else None
  }

  /** The resolved URLs of the contact links, each once, in order of first appearance. */
  function ContactLinks(links: seq<Link>): (r: seq<string>)
    ensures NoDups(r)
    ensures forall u :: u in r <==> exists i :: 0 <= i < |links| && IsContactLink(links[i]) && links[i].url == u
  {
    var urls := FilterMap(ContactUrl, links);
    var r := Dedup(urls);
    assert forall u :: u in r <==> exists i :: 0 <= i < |links| && IsContactLink(links[i]) && links[i].url == u by {
      forall u ensures u in r <==> exists i :: 0 <= i < |links| && IsContactLink(links[i]) && links[i].url == u {
        FilterMapMember(ContactUrl, links, u);
        assert u in r <==> u in urls;
      }
    }
    r
  }

  /** The URLs come in the order their first contact link appears on the page. */
  lemma ContactLinksOrder(links: seq<Link>, i: nat, j: nat)
    requires i < j < |ContactLinks(links)|
    ensures var urls := FilterMap(ContactUrl, links);
            var r := ContactLinks(links);
            r[i] in urls && r[j] in urls && IndexOf(urls, r[i]) < IndexOf(urls, r[j])
  {
    DedupOrder(FilterMap(ContactUrl, links));
  }
}

=== FILE: normalizer.dfy ===
/**
 * `clean_phone_number`: delete label tokens, strip, rewrite `+49(0)` to
 * `+49`, collapse whitespace runs, and keep the result only if some library
 * pattern matches at its start.
 */
module Normalizer {
  import opened Optional
  import opened Text
  import opened Patterns

  /** The label tokens deleted, ignoring case, in the order the alternation lists them. */
  const Labels: seq<string> := ["tel:", "telefon:", "phone:", "tel.", "telefon.", "phone."]

  /** `s` starts with `Labels[j]`, ignoring case. */
  predicate LabelStarts(s: string, j: nat)
    requires j < |Labels|
  {
    |Labels[j]| <= |s| && Lower(s[..|Labels[j]|]) == Labels[j]
  }

  /** A label token occurs somewhere in `s`, ignoring case. */
  ghost predicate HasLabel(s: string) {
    exists i, j :: 0 <= i <= |s| && 0 <= j < |Labels| && LabelStarts(s[i..], j)
  }

  /** At any position at most one alternative of the label regex matches. */
  lemma LabelsExclusive(s: string, j1: nat, j2: nat)
    requires j1 < |Labels| && j2 < |Labels|
    requires LabelStarts(s, j1) && LabelStarts(s, j2)
    ensures j1 == j2
  {
    var n1, n2 := |Labels[j1]|, |Labels[j2]|;
    var m := if n1 < n2 then n1 else n2;
    forall i | 0 <= i < m ensures Labels[j1][i] == Labels[j2][i] {
      assert Lower(s[..n1])[i] == LowerChar(s[i]) == Lower(s[..n2])[i];
    }
    // The labels first differ at position 0, 3, 5 or 7.
    assert Labels[j1][0] == Labels[j2][0] && Labels[j1][3] == Labels[j2][3];
    if m > 7 {
      assert Labels[j1][5] == Labels[j2][5] && Labels[j1][7] == Labels[j2][7];
    }
  }

  /** Labels begin with a letter, so text made of phone characters holds none. */
  lemma PhoneTextHasNoLabel(s: string)
    requires PhoneText(s)
    ensures !HasLabel(s)
  {
    forall i, j | 0 <= i <= |s| && 0 <= j < |Labels| ensures !LabelStarts(s[i..], j) {
      if |Labels[j]| <= |s[i..]| {
        assert Lower(s[i..][..|Labels[j]|])[0] == LowerChar(s[i]);
      }
    }
  }

  /** Length of the first of `Labels[j..]` that starts `s`, if any. */
  function LabelAt(s: string, j: nat): (r: Option<nat>)
    requires j <= |Labels|
    ensures r.Some? ==> 0 < r.value <= |s| &&
                        exists j' :: j <= j' < |Labels| && LabelStarts(s, j') && r.value == |Labels[j']|
    ensures r.None? ==> forall j' :: j <= j' < |Labels| ==> !LabelStarts(s, j')
    decreases |Labels| - j
  {
    if j == |Labels| then None
    else if LabelStarts(s, j) then Some(|Labels[j]|)
    else LabelAt(s, j + 1)
  }

  /** `re.sub(label_regex, '', s, flags=re.IGNORECASE)`: one left-to-right pass deleting label tokens. */
  function StripLabels(s: string): (r: string)
    ensures |r| <= |s|
    decreases |s|
  {
    if |s| == 0 then ""
    else match LabelAt(s, 0)
      case Some(n) => StripLabels(s[n..])
      case None => [s[0]] + StripLabels(s[1..])
  }

  /** Text without label tokens passes through the deletion unchanged. */
  lemma {:induction false} StripLabelsFixpoint(s: string)
    requires !HasLabel(s)
    ensures StripLabels(s) == s
    decreases |s|
  {
    if |s| > 0 {
      assert s[0..] == s;
      forall i, j | 0 <= i <= |s[1..]| && 0 <= j < |Labels| ensures !LabelStarts(s[1..][i..], j) {
        assert s[1..][i..] == s[i + 1..];
      }
      StripLabelsFixpoint(s[1..]);
      assert s == [s[0]] + s[1..];
    }
  }

  /** A label token, in any letter case, at the front is deleted. */
  lemma LabelTokenDeleted(l: string, t: string, j: nat)
    requires j < |Labels| && Lower(l) == Labels[j]
    ensures StripLabels(l + t) == StripLabels(t)
  {
    var s := l + t;
    assert s[..|l|] == l;
    assert LabelStarts(s, j);
    var n := LabelAt(s, 0).value;
    var j' :| 0 <= j' < |Labels| && LabelStarts(s, j') && n == |Labels[j']|;
    LabelsExclusive(s, j, j');
    assert s[n..] == t;
  }

  /** Where no label starts, the first character is kept and the scan moves on by one. */
  lemma StripLabelsKeep(s: string)
    requires |s| > 0 && forall j :: 0 <= j < |Labels| ==> !LabelStarts(s, j)
    ensures StripLabels(s) == [s[0]] + StripLabels(s[1..])
  {
    LabelAtNone(s, 0);
  }

  lemma {:induction false} LabelAtNone(s: string, j: nat)
    requires j <= |Labels| && forall j' :: j <= j' < |Labels| ==> !LabelStarts(s, j')
    ensures LabelAt(s, j) == None
    decreases |Labels| - j
  {
    if j < |Labels| {
      LabelAtNone(s, j + 1);
    }
  }

  /** Labels begin with `t` or `p`, so a character lower-casing to neither starts none. */
  lemma NoLabelAtFront(s: string)
    requires |s| > 0 && LowerChar(s[0]) != 't' && LowerChar(s[0]) != 'p'
    ensures forall j :: 0 <= j < |Labels| ==> !LabelStarts(s, j)
  {
    forall j | 0 <= j < |Labels| ensures !LabelStarts(s, j) {
      if |Labels[j]| <= |s| {
        assert Lower(s[..|Labels[j]|])[0] == LowerChar(s[0]);
      }
    }
  }

  /**
   * Text in which no character lower-cases to a label's first letter is
   * copied, and the deletion goes on in what follows it: a label after
   * other text is deleted as well.
   */
  lemma {:induction false} StripLabelsCopy(a: string, b: string)
    requires forall k :: 0 <= k < |a| ==> LowerChar(a[k]) != 't' && LowerChar(a[k]) != 'p'
    ensures StripLabels(a + b) == a + StripLabels(b)
    decreases |a|
  {
    if |a| > 0 {
      StripLabelsCopy(a[1..], b);
      CopyHead(a, b);
      ConsSplit(a, StripLabels(b));
    } else {
      assert a + b == b;
    }
  }

  lemma CopyHead(a: string, b: string)
    requires |a| > 0 && LowerChar(a[0]) != 't' && LowerChar(a[0]) != 'p'
    ensures StripLabels(a + b) == [a[0]] + StripLabels(a[1..] + b)
  {
    var s := a + b;
    assert s[1..] == a[1..] + b;
    NoLabelAtFront(s);
    StripLabelsKeep(s);
  }

  /** `s` starts with "+49", then `k` whitespace characters, then "(0)". */
  predicate TrunkStarts(s: string, k: nat) {
    6 + k <= |s| && s[..3] == "+49" && AllSpace(s[3..3 + k]) && s[3 + k..6 + k] == "(0)"
  }

  /** A `+49\s*\(0\)` token occurs somewhere in `s`. */
  ghost predicate HasTrunk(s: string) {
    exists i, k :: 0 <= i <= |s| && TrunkStarts(s[i..], k)
  }

  /** Length of the `+49\s*\(0\)` token at the start of `s`, if any. */
  function TrunkAt(s: string): (r: Option<nat>)
    ensures r.Some? ==> 6 <= r.value <= |s| && TrunkStarts(s, r.value - 6)
    ensures r.None? ==> forall k :: !TrunkStarts(s, k)
  {
    if 3 <= |s| && s[..3] == "+49" then
      var k := Run(Space, s[3..]);
      assert forall k': nat :: TrunkStarts(s, k') ==> k' == k by {
        forall k': nat | TrunkStarts(s, k') ensures k' == k {
          assert s[3..][..k'] == s[3..3 + k'];
          RunMaximal(Space, s[3..], k');
          assert s[3 + k'] == s[3 + k'..6 + k'][0] == '(';
          assert s[3..][k'] == '(';
        }
      }
      assert s[3..][..k] == s[3..3 + k];
      if 6 + k <= |s| && s[3 + k..6 + k] == "(0)" then Some(6 + k) else None
    else None
  }

  /**
   * `re.sub(r'\+49\s*\(0\)', '+49', s)`. The first character never changes,
   * and a last character that is not whitespace stays so.
   */
  function CollapseTrunk(s: string): (r: string)
    ensures |r| <= |s|
    ensures |s| > 0 ==> |r| > 0 && r[0] == s[0]
    ensures |s| > 0 && !IsSpace(s[|s| - 1]) ==> !IsSpace(r[|r| - 1])
    decreases |s|
  {
    if |s| == 0 then ""
    else match TrunkAt(s)
      case Some(n) =>
        assert n == |s| || s[|s| - 1] == s[n..][|s| - n - 1];
        "+49" + CollapseTrunk(s[n..])
      case None => [s[0]] + CollapseTrunk(s[1..])
  }

  /** Text without `+49(0)` tokens passes through the rewrite unchanged. */
  lemma {:induction false} CollapseTrunkFixpoint(s: string)
    requires !HasTrunk(s)
    ensures CollapseTrunk(s) == s
    decreases |s|
  {
    if |s| > 0 {
      assert s[0..] == s;
      forall i, k | 0 <= i <= |s[1..]| ensures !TrunkStarts(s[1..][i..], k) {
        assert s[1..][i..] == s[i + 1..];
      }
      CollapseTrunkFixpoint(s[1..]);
      assert s == [s[0]] + s[1..];
    }
  }

  /** At most one `+49\s*\(0\)` token starts `s`: the run of whitespace ends at the `(`. */
  lemma TrunkUnique(s: string, k1: nat, k2: nat)
    requires TrunkStarts(s, k1) && TrunkStarts(s, k2)
    ensures k1 == k2
  {
    TrunkRun(s, k1);
    TrunkRun(s, k2);
  }

  lemma TrunkRun(s: string, k: nat)
    requires TrunkStarts(s, k)
    ensures k == Run(Space, s[3..])
  {
    assert s[3..][..k] == s[3..3 + k];
    RunMaximal(Space, s[3..], k);
    assert s[3..][k] == s[3 + k..6 + k][0] == '(';
  }

  /**
   * A `+49\s*\(0\)` token at the front, with any whitespace before the `(`,
   * becomes `+49` and the rewrite resumes after it.
   */
  lemma TrunkTokenDeleted(s: string, k: nat)
    requires TrunkStarts(s, k)
    ensures CollapseTrunk(s) == "+49" + CollapseTrunk(s[6 + k..])
  {
    var n := TrunkAt(s).value;
    TrunkUnique(s, k, n - 6);
  }

  /** Where no token starts, the first character is kept and the rewrite moves on by one. */
  lemma CollapseTrunkKeep(s: string)
    requires |s| > 0 && forall k: nat :: !TrunkStarts(s, k)
    ensures CollapseTrunk(s) == [s[0]] + CollapseTrunk(s[1..])
  {
    assert TrunkAt(s).None?;
  }

  /** A character other than '+' cannot begin a `+49(0)` token. */
  lemma CollapseTrunkStep(s: string)
    requires |s| > 0 && s[0] != '+'
    ensures CollapseTrunk(s) == [s[0]] + CollapseTrunk(s[1..])
  {
    if 3 <= |s| {
      assert s[..3][0] == s[0];
    }
  }

  /** Text before the first '+' passes through the rewrite unchanged. */
  lemma {:induction false} CollapseTrunkPlusFree(a: string, b: string)
    requires forall k :: 0 <= k < |a| ==> a[k] != '+'
    ensures CollapseTrunk(a + b) == a + CollapseTrunk(b)
    decreases |a|
  {
    if |a| > 0 {
      CollapseTrunkPlusFree(a[1..], b);
      PlusFreeStep(a, b, CollapseTrunk(b));
    } else {
      assert a + b == b;
    }
  }

  lemma PlusFreeStep(a: string, b: string, t: string)
    requires |a| > 0 && a[0] != '+'
    requires CollapseTrunk(a[1..] + b) == a[1..] + t
    ensures CollapseTrunk(a + b) == a + t
  {
    CollapseTrunkHead(a, b);
    ConsSplit(a, t);
  }

  lemma CollapseTrunkHead(a: string, b: string)
    requires |a| > 0 && a[0] != '+'
    ensures CollapseTrunk(a + b) == [a[0]] + CollapseTrunk(a[1..] + b)
  {
    var s := a + b;
    assert s[1..] == a[1..] + b;
    CollapseTrunkStep(s);
  }

  lemma ConsSplit(a: string, t: string)
    requires |a| > 0
    ensures [a[0]] + (a[1..] + t) == a + t
  {
    assert a == [a[0]] + a[1..];
  }

  /** Every whitespace character is a plain space and is followed by a non-whitespace one. */
  predicate SingleSpaced(s: string) {
    && (forall i :: 0 <= i < |s| && IsSpace(s[i]) ==> s[i] == ' ')
    && (forall i, j :: 0 <= i < |s| && 0 <= j < |s| && j == i + 1 ==> !IsSpace(s[i]) || !IsSpace(s[j]))
  }

  /**
   * `r` is what collapsing the whitespace runs of `s` must give: single
   * spaces only, the same words in the same order, no longer, and at each
   * end a space exactly where `s` has whitespace. These determine `r`.
   */
  predicate Collapsed(s: string, r: string) {
    && SingleSpaced(r)
    && Words(r) == Words(s)
    && NonSpace(r) == NonSpace(s)
    && |r| <= |s|
    && (|s| > 0 ==> |r| > 0)
    && (|s| > 0 && !IsSpace(s[0]) ==> r[0] == s[0])
    && (|s| > 0 && IsSpace(s[0]) ==> r[0] == ' ')
    && (|s| > 0 && !IsSpace(s[|s| - 1]) ==> !IsSpace(r[|r| - 1]))
    && (|s| > 0 && IsSpace(s[|s| - 1]) ==> r[|r| - 1] == ' ')
  }

  /** `re.sub(r'\s+', ' ', s)`: each maximal whitespace run becomes one space. */
  function CollapseSpaces(s: string): (r: string)
    ensures Collapsed(s, r)
    decreases |s|
  {
    if |s| == 0 then ""
    else if IsSpace(s[0]) then
      var n := Run(Space, s);
      var rest := CollapseSpaces(s[n..]);
      SpaceBranch(s, n, rest);
      " " + rest
    else
      var rest := CollapseSpaces(s[1..]);
      CharBranch(s, rest);
      [s[0]] + rest
  }

  /** A whitespace run of length `n` at the front of `s` becomes one space before the collapsed rest. */
  lemma SpaceBranch(s: string, n: nat, rest: string)
    requires 0 < n <= |s| && AllSpace(s[..n]) && (n < |s| ==> !IsSpace(s[n]))
    requires Collapsed(s[n..], rest)
    ensures Collapsed(s, " " + rest)
  {
    SpaceBranchText(s, n, rest);
    SpaceBeforeText(rest);
    SpaceBranchWords(s, n, rest);
    SpaceBranchLast(s, n, rest);
  }

  lemma SpaceBranchLast(s: string, n: nat, rest: string)
    requires 0 < n <= |s| && |rest| <= |s| - n
    requires n < |s| ==> 0 < |rest|
    requires |s[n..]| > 0 && !IsSpace(s[n..][|s[n..]| - 1]) ==> !IsSpace(rest[|rest| - 1])
    requires |s[n..]| > 0 && IsSpace(s[n..][|s[n..]| - 1]) ==> rest[|rest| - 1] == ' '
    requires AllSpace(s[..n])
    ensures !IsSpace(s[|s| - 1]) ==> !IsSpace((" " + rest)[|" " + rest| - 1])
    ensures IsSpace(s[|s| - 1]) ==> (" " + rest)[|" " + rest| - 1] == ' '
  {
    if n < |s| {
      assert s[|s| - 1] == s[n..][|s| - n - 1];
      assert (" " + rest)[|rest|] == rest[|rest| - 1];
    } else {
      assert IsSpace(s[..n][n - 1]);
    }
  }

  lemma SpaceBranchWords(s: string, n: nat, rest: string)
    requires 0 < n <= |s| && AllSpace(s[..n])
    requires Words(rest) == Words(s[n..])
    ensures Words(" " + rest) == Words(s)
  {
    WordsDropSpaces(s, n);
    assert (" " + rest)[1..] == rest;
  }

  lemma SpaceBranchText(s: string, n: nat, rest: string)
    requires 0 < n <= |s| && AllSpace(s[..n])
    requires NonSpace(rest) == NonSpace(s[n..])
    ensures NonSpace(" " + rest) == NonSpace(s)
  {
    assert s == s[..n] + s[n..];
    NonSpaceAppend(s[..n], s[n..]);
    NonSpaceOfSpaces(s[..n]);
    NonSpaceAppend(" ", rest);
  }

  lemma SpaceBeforeText(rest: string)
    requires SingleSpaced(rest) && (|rest| > 0 ==> !IsSpace(rest[0]))
    ensures SingleSpaced(" " + rest)
  {
    var r := " " + rest;
    forall i, j | 0 <= i < |r| && 0 <= j < |r| && j == i + 1
      ensures !IsSpace(r[i]) || !IsSpace(r[j])
    {
      if i > 0 {
        assert r[i] == rest[i - 1] && r[j] == rest[j - 1];
      } else {
        assert r[j] == rest[0];
      }
    }
  }

  /** A leading non-whitespace character is kept before the collapsed rest. */
  lemma CharBranch(s: string, rest: string)
    requires 0 < |s| && !IsSpace(s[0])
    requires Collapsed(s[1..], rest)
    ensures Collapsed(s, [s[0]] + rest)
  {
    CharBranchText(s, rest);
    CharBeforeText(s[0], rest);
    if 1 < |s| {
      assert s[1..][0] == s[1];
      CharBranchWords(s, rest);
      assert s[|s| - 1] == s[1..][|s| - 2];
      assert ([s[0]] + rest)[|rest|] == rest[|rest| - 1];
    } else {
      assert s == [s[0]] && [s[0]] + rest == [s[0]];
    }
  }

  lemma CharBranchWords(s: string, rest: string)
    requires 1 < |s| && !IsSpace(s[0]) && 0 < |rest|
    requires Words(rest) == Words(s[1..])
    requires !IsSpace(s[1]) ==> rest[0] == s[1]
    requires IsSpace(s[1]) ==> rest[0] == ' '
    ensures Words([s[0]] + rest) == Words(s)
  {
    assert ([s[0]] + rest)[1..] == rest && ([s[0]] + rest)[1] == rest[0];
  }

  lemma CharBranchText(s: string, rest: string)
    requires 0 < |s| && !IsSpace(s[0])
    requires NonSpace(rest) == NonSpace(s[1..])
    ensures NonSpace([s[0]] + rest) == NonSpace(s)
  {
    assert ([s[0]] + rest)[1..] == rest;
  }

  lemma CharBeforeText(c: char, rest: string)
    requires !IsSpace(c) && SingleSpaced(rest)
    ensures SingleSpaced([c] + rest)
  {
    var r := [c] + rest;
    forall i, j | 0 <= i < |r| && 0 <= j < |r| && j == i + 1
      ensures !IsSpace(r[i]) || !IsSpace(r[j])
    {
      if i > 0 {
        assert r[i] == rest[i - 1] && r[j] == rest[j - 1];
      }
    }
  }

  /** The tail of single-spaced text is single-spaced, and a leading space is followed by a word. */
  lemma SingleSpacedTail(r: string)
    requires |r| > 0 && SingleSpaced(r)
    ensures SingleSpaced(r[1..])
    ensures IsSpace(r[0]) ==> r[0] == ' ' && (|r| > 1 ==> StartsWord(r[1..]))
  {
    var t := r[1..];
    forall i, j | 0 <= i < |t| && 0 <= j < |t| && j == i + 1 ensures !IsSpace(t[i]) || !IsSpace(t[j]) {
      assert t[i] == r[i + 1] && t[j] == r[j + 1];
    }
    if IsSpace(r[0]) && |r| > 1 {
      assert t[0] == r[1];
    }
  }

  /** Single-spaced text made of whitespace only, and not empty, is one space. */
  lemma LoneSpace(t: string)
    requires |t| > 0 && SingleSpaced(t) && IsSpace(t[0]) && Words(t) == []
    ensures t == " "
  {
    SingleSpacedTail(t);
    WordsNonEmpty(t[1..]);
  }

  /**
   * After the same non-whitespace character, equal words mean equal words of
   * the rests, and both rests continue that first word or neither does.
   */
  lemma HeadCancel(c: char, t1: string, t2: string)
    requires !IsSpace(c) && Words([c] + t1) == Words([c] + t2)
    ensures Words(t1) == Words(t2) && (StartsWord(t1) <==> StartsWord(t2))
  {
    WordsCons(c, t1);
    WordsCons(c, t2);
    ConsCancel(c, Words(t1), Words(t2), StartsWord(t1), StartsWord(t2));
  }

  /** The list-level step of `HeadCancel`, stated on the words alone. */
  lemma ConsCancel(c: char, w1: seq<string>, w2: seq<string>, b1: bool, b2: bool)
    requires b1 ==> |w1| > 0 && |w1[0]| > 0
    requires b2 ==> |w2| > 0 && |w2[0]| > 0
    requires (if b1 then [[c] + w1[0]] + w1[1..] else [[c]] + w1) ==
             (if b2 then [[c] + w2[0]] + w2[1..] else [[c]] + w2)
    ensures w1 == w2 && b1 == b2
  {
    var x1 := if b1 then [[c] + w1[0]] + w1[1..] else [[c]] + w1;
    var x2 := if b2 then [[c] + w2[0]] + w2[1..] else [[c]] + w2;
    assert |x1[0]| == |x2[0]|;
    if b1 && b2 {
      assert w1[0] == x1[0][1..] == x2[0][1..] == w2[0];
      assert w1 == [w1[0]] + x1[1..] && w2 == [w2[0]] + x2[1..];
    } else if !b1 && !b2 {
      assert w1 == x1[1..] && w2 == x2[1..];
    }
  }

  /**
   * Single-spaced text is fixed by its words and by whether it is empty,
   * starts with whitespace and ends with whitespace.
   */
  lemma {:induction false} SingleSpacedUnique(r1: string, r2: string)
    requires SingleSpaced(r1) && SingleSpaced(r2) && Words(r1) == Words(r2)
    requires |r1| > 0 <==> |r2| > 0
    requires |r1| > 0 && |r2| > 0 ==> (IsSpace(r1[0]) <==> IsSpace(r2[0]))
    requires |r1| > 0 && |r2| > 0 ==> (IsSpace(r1[|r1| - 1]) <==> IsSpace(r2[|r2| - 1]))
    ensures r1 == r2
    decreases |r1| + |r2|
  {
    if |r1| > 0 {
      var t1, t2 := r1[1..], r2[1..];
      SingleSpacedTail(r1);
      SingleSpacedTail(r2);
      assert r1 == [r1[0]] + t1 && r2 == [r2[0]] + t2;
      if IsSpace(r1[0]) {
        assert Words(t1) == Words(r1) && Words(t2) == Words(r2);
        WordsNonEmpty(t1);
        WordsNonEmpty(t2);
      } else {
        WordsNonEmpty(r1);
        WordsNonEmpty(r2);
        assert r1[0] == Words(r1)[0][0] == r2[0];
        HeadCancel(r1[0], t1, t2);
        if |t1| == 0 && |t2| > 0 {
          LoneSpace(t2);
        } else if |t2| == 0 && |t1| > 0 {
          LoneSpace(t1);
        }
      }
      if |t1| > 0 && |t2| > 0 {
        assert r1[|r1| - 1] == t1[|t1| - 1] && r2[|r2| - 1] == t2[|t2| - 1];
      }
      SingleSpacedUnique(t1, t2);
    }
  }

  /** The contract of `CollapseSpaces` admits one result only. */
  lemma CollapsedUnique(s: string, r: string)
    requires Collapsed(s, r)
    ensures r == CollapseSpaces(s)
  {
    SingleSpacedUnique(r, CollapseSpaces(s));
  }

  /** Single-spaced text passes through the collapse unchanged. */
  lemma CollapseSpacesFixpoint(s: string)
    requires SingleSpaced(s)
    ensures CollapseSpaces(s) == s
  {
    CollapsedUnique(s, s);
  }

  /** No surrounding whitespace, and only single plain spaces inside. */
  predicate Tidy(s: string) {
    Trimmed(s) && SingleSpaced(s)
  }

  /**
   * The text transformations of `clean_phone_number`, in the order it applies
   * them. Without label or `+49(0)` tokens only whitespace changes.
   */
  function Normalize(phone: string): (r: string)
    ensures Tidy(r)
    ensures |r| <= |phone|
    ensures !HasLabel(phone) && !HasTrunk(phone) ==> NonSpace(r) == NonSpace(phone)
    ensures !HasLabel(phone) && !HasTrunk(phone) ==> Words(r) == Words(phone)
  {
    var unlabelled := StripLabels(phone);
    var stripped := Strip(unlabelled);
    var collapsed := CollapseTrunk(stripped);
    TidyAfterTrunk(stripped);
    TokenFreeKeepsText(phone);
    CollapseSpaces(collapsed)
  }

  /** Collapsing the whitespace of stripped text, after the trunk rewrite, gives tidy text. */
  lemma TidyAfterTrunk(stripped: string)
    requires Trimmed(stripped)
    ensures Tidy(CollapseSpaces(CollapseTrunk(stripped)))
  {
    var c := CollapseTrunk(stripped);
    var r := CollapseSpaces(c);
    if |stripped| > 0 {
      assert !IsSpace(c[0]) && !IsSpace(c[|c| - 1]);
      assert r[0] == c[0];
    }
  }

  /**
   * Without tokens, deleting labels and rewriting the trunk change nothing,
   * so only whitespace changes: the text and its words stay.
   */
  lemma TokenFreeKeepsText(phone: string)
    ensures !HasLabel(phone) && !HasTrunk(phone) ==>
            NonSpace(CollapseSpaces(CollapseTrunk(Strip(StripLabels(phone))))) == NonSpace(phone)
    ensures !HasLabel(phone) && !HasTrunk(phone) ==>
            Words(CollapseSpaces(CollapseTrunk(Strip(StripLabels(phone))))) == Words(phone)
  {
    if !HasLabel(phone) && !HasTrunk(phone) {
      StripLabelsFixpoint(phone);
      var i, j :| 0 <= i <= j <= |phone| && Strip(phone) == phone[i..j] && AllSpace(phone[..i]) && AllSpace(phone[j..]);
      NoTrunkInSlice(phone, i, j);
      CollapseTrunkFixpoint(Strip(phone));
      StripKeepsText(phone);
      StripKeepsWords(phone);
    }
  }

  /** A slice of text without `+49(0)` tokens has none either. */
  lemma NoTrunkInSlice(s: string, a: nat, b: nat)
    requires a <= b <= |s| && !HasTrunk(s)
    ensures !HasTrunk(s[a..b])
  {
    forall i, k | 0 <= i <= |s[a..b]| ensures !TrunkStarts(s[a..b][i..], k) {
      var t, u := s[a..b][i..], s[a + i..];
      assert t == u[..|t|];
      TrunkStartsExtend(t, u, k);
    }
  }

  /** Whether a token starts `t` depends only on `t`'s characters, so it also starts any extension. */
  lemma TrunkStartsExtend(t: string, u: string, k: nat)
    requires |t| <= |u| && t == u[..|t|]
    ensures TrunkStarts(t, k) ==> TrunkStarts(u, k)
  {
    if TrunkStarts(t, k) {
      assert t[..3] == u[..3];
      assert t[3..3 + k] == u[3..3 + k];
      assert t[3 + k..6 + k] == u[3 + k..6 + k];
    }
  }

  /** Tidy text without label or `+49(0)` tokens is already normal. */
  lemma NormalizeFixpoint(s: string)
    requires !HasLabel(s) && !HasTrunk(s) && Tidy(s)
    ensures Normalize(s) == s
  {
    StripLabelsFixpoint(s);
    StripTrimmed(s);
    CollapseTrunkFixpoint(s);
    CollapseSpacesFixpoint(s);
  }

  /**
   * `clean_phone_number(phone)`: `None` for the empty string; otherwise the
   * normalised text if some library pattern matches at its start, else `None`.
   */
  function Clean(phone: string): (r: Option<string>)
    ensures phone == "" ==> r == None
    ensures r.Some? <==> phone != "" && MatchesLibrary(Normalize(phone))
    ensures r.Some? ==> r.value == Normalize(phone)
    ensures r.Some? ==> MatchesLibrary(r.value) && Tidy(r.value) && |r.value| > 0
  {
    if phone == "" then None
    else
      var t := Normalize(phone);
      LibrarySearchIff(t);
      if SearchLibrary(t) then
        LibraryMatchNonEmpty(t);
        Some(t)
      else None
  }

  /**
   * A string without label or `+49(0)` tokens, without surrounding whitespace,
   * with single spaces only, that some pattern matches at its start, is
   * returned unchanged.
   */
  lemma CleanFixpoint(s: string)
    requires !HasLabel(s) && !HasTrunk(s) && Tidy(s) && MatchesLibrary(s)
    ensures Clean(s) == Some(s)
  {
    LibraryMatchNonEmpty(s);
    NormalizeFixpoint(s);
  }

  /** Cleaning a cleaned number again changes nothing unless the first pass left a token behind. */
  lemma CleanStable(phone: string)
    requires Clean(phone).Some?
    requires !HasLabel(Clean(phone).value) && !HasTrunk(Clean(phone).value)
    ensures Clean(Clean(phone).value) == Clean(phone)
  {
    CleanFixpoint(Clean(phone).value);
  }
}

=== FILE: optional.dfy ===
/** The "value or nothing" result that the finder returns where Python returns None. */
module Optional {

  datatype Option<+T> = None | Some(value: T)
}

=== FILE: patterns.dfy ===
/**
 * The pattern library of the finder: fifteen regular expressions for German
 * telephone numbers, written as sequences of atoms (literals, bounded digit
 * groups, separator stars, one character class).
 *
 * `Matches` is the language of a pattern, `PrefixMatches` says some prefix of a
 * string lies in it, and `Search` is the greedy backtracking search Python's
 * `re.match` performs; `SearchIff` proves the two agree.
 */
module Patterns {
  import opened Text

  datatype CharClass = Digit | Space | SpaceOrHyphen | OneOf(members: string)

  predicate InClass(c: CharClass, ch: char) {
    match c
    case Digit => IsDigit(ch)
    case Space => IsSpace(ch)
    case SpaceOrHyphen => IsSpace(ch) || ch == '-'
    case OneOf(m) => ch in m
  }

  predicate AllIn(c: CharClass, w: string) {
    forall i :: 0 <= i < |w| ==> InClass(c, w[i])
  }

  datatype Atom =
    | Lit(text: string)                         // an escaped literal: \+49, 0, \(, \/ ...
    | Repeat(cls: CharClass, lo: nat, hi: nat)  // cls{lo,hi}
    | Star(cls: CharClass)                      // cls*

  type Pattern = seq<Atom>

  predicate AtomMatches(a: Atom, w: string) {
    match a
    case Lit(t) => w == t
    case Repeat(c, lo, hi) => lo <= |w| <= hi && AllIn(c, w)
    case Star(c) => AllIn(c, w)
  }

  /** `s` lies in the language of `p`: it splits into pieces the atoms match in turn. */
  ghost predicate Matches(p: Pattern, s: string)
    decreases |p|
  {
    if |p| == 0 then s == []
    else exists k :: 0 <= k <= |s| && AtomMatches(p[0], s[..k]) && Matches(p[1..], s[k..])
  }

  /** Some prefix of `s` lies in the language of `p` (a match anchored at the start only). */
  ghost predicate PrefixMatches(p: Pattern, s: string) {
    exists m :: 0 <= m <= |s| && Matches(p, s[..m])
  }

  /** Length of the longest prefix of `s` whose characters all belong to `c`. */
  function Run(c: CharClass, s: string): (n: nat)
    ensures n <= |s| && AllIn(c, s[..n])
    ensures n < |s| ==> !InClass(c, s[n])
    decreases |s|
  {
    if |s| > 0 && InClass(c, s[0]) then
      var n := 1 + Run(c, s[1..]);
      assert s[..n] == [s[0]] + s[1..][..n - 1];
      n
    else 0
  }

  /** A run of class characters never extends past `Run`. */
  lemma RunMaximal(c: CharClass, s: string, k: nat)
    requires k <= |s| && AllIn(c, s[..k])
    ensures k <= Run(c, s)
  {
  }

  /** The longest piece at the start of `s` that `a` may take: where greedy matching begins. */
  function Longest(a: Atom, s: string): (n: nat)
    ensures n <= |s|
    ensures forall k :: 0 <= k <= |s| && AtomMatches(a, s[..k]) ==> k <= n
  {
    match a
    case Lit(t) => if |t| <= |s| then |t| else 0
    case Repeat(c, lo, hi) =>
      var r := Run(c, s);
      assert forall k :: 0 <= k <= |s| && AllIn(c, s[..k]) ==> k <= r by {
        forall k | 0 <= k <= |s| && AllIn(c, s[..k]) ensures k <= r {
          RunMaximal(c, s, k);
        }
      }
      if r < hi then r else hi
    case Star(c) =>
      var r := Run(c, s);
      assert forall k :: 0 <= k <= |s| && AllIn(c, s[..k]) ==> k <= r by {
        forall k | 0 <= k <= |s| && AllIn(c, s[..k]) ensures k <= r {
          RunMaximal(c, s, k);
        }
      }
      r
  }

  /**
   * `re.match(p, s)` succeeds: the first atom takes the longest piece it can,
   * and shorter pieces are tried on failure of the rest (backtracking).
   */
  predicate Search(p: Pattern, s: string)
    decreases |p|, 1
  {
    |p| == 0 || TryLengths(p, s, Longest(p[0], s))
  }

  /** Tries the first atom on the pieces of length `k`, `k - 1`, ..., 0 in turn. */
  predicate TryLengths(p: Pattern, s: string, k: nat)
    requires |p| > 0 && k <= |s|
    decreases |p|, 0, k
  {
    || (AtomMatches(p[0], s[..k]) && Search(p[1..], s[k..]))
    || (k > 0 && TryLengths(p, s, k - 1))
  }

  lemma {:induction false} TryLengthsIff(p: Pattern, s: string, k: nat)
    requires |p| > 0 && k <= |s|
    ensures TryLengths(p, s, k) <==>
            exists j :: 0 <= j <= k && AtomMatches(p[0], s[..j]) && Search(p[1..], s[j..])
    decreases k
  {
    if k > 0 {
      TryLengthsIff(p, s, k - 1);
    }
  }

  /** Backtracking succeeds exactly when some prefix of `s` is in the language of `p`. */
  lemma {:induction false} SearchIff(p: Pattern, s: string)
    ensures Search(p, s) <==> PrefixMatches(p, s)
    decreases |p|, 1
  {
    if Search(p, s) {
      SearchSound(p, s);
    }
    if PrefixMatches(p, s) {
      SearchComplete(p, s);
    }
  }

  lemma {:induction false} SearchSound(p: Pattern, s: string)
    requires Search(p, s)
    ensures PrefixMatches(p, s)
    decreases |p|, 0
  {
    if |p| == 0 {
      assert Matches(p, s[..0]);
    } else {
      var n := Longest(p[0], s);
      TryLengthsIff(p, s, n);
      var j :| 0 <= j <= n && AtomMatches(p[0], s[..j]) && Search(p[1..], s[j..]);
      SearchIff(p[1..], s[j..]);
      var m' :| 0 <= m' <= |s[j..]| && Matches(p[1..], s[j..][..m']);
      var m := j + m';
      assert s[..m][..j] == s[..j];
      assert s[..m][j..] == s[j..][..m'];
      assert Matches(p, s[..m]);
    }
  }

  lemma {:induction false} SearchComplete(p: Pattern, s: string)
    requires PrefixMatches(p, s)
    ensures Search(p, s)
    decreases |p|, 0
  {
    if |p| > 0 {
      var n := Longest(p[0], s);
      TryLengthsIff(p, s, n);
      var m :| 0 <= m <= |s| && Matches(p, s[..m]);
      var j :| 0 <= j <= m && AtomMatches(p[0], s[..m][..j]) && Matches(p[1..], s[..m][j..]);
      assert s[..m][..j] == s[..j];
      assert s[..m][j..] == s[j..][..m - j];
      assert PrefixMatches(p[1..], s[j..]);
      SearchIff(p[1..], s[j..]);
      assert j <= n;
    }
  }

  /** The concatenation of `pieces[k..]`. */
  function ConcatFrom(pieces: seq<string>, k: nat): (s: string)
    requires k <= |pieces|
    decreases |pieces| - k
  {
    if k == |pieces| then "" else pieces[k] + ConcatFrom(pieces, k + 1)
  }

  /** A string cut into pieces that the atoms match one by one is in the language. */
  lemma {:induction false} MatchesPieces(p: Pattern, pieces: seq<string>, k: nat)
    requires |p| == |pieces| && k <= |p|
    requires forall i :: k <= i < |p| ==> AtomMatches(p[i], pieces[i])
    ensures Matches(p[k..], ConcatFrom(pieces, k))
    decreases |p| - k
  {
    if k < |p| {
      var s := ConcatFrom(pieces, k);
      var n := |pieces[k]|;
      MatchesPieces(p, pieces, k + 1);
      assert s[..n] == pieces[k];
      assert s[n..] == ConcatFrom(pieces, k + 1);
      assert p[k..][1..] == p[k + 1..];
    }
  }

  // Building blocks of the library.
  function Digits(lo: nat, hi: nat): Atom { Repeat(Digit, lo, hi) }
  const Ws: Atom := Star(Space)              // \s*
  const WsOrHyphen: Atom := Star(SpaceOrHyphen)  // [\s\-]*
  const Plus49: Atom := Lit("+49")
  const Zero: Atom := Lit("0")
  const Open: Atom := Lit("(")
  const Close: Atom := Lit(")")

  /** The fifteen patterns, in the order the finder tries them. */
  const Library: seq<Pattern> := [
    [Plus49, WsOrHyphen, Digits(2, 4), WsOrHyphen, Digits(2, 4), WsOrHyphen, Digits(1, 4), WsOrHyphen, Digits(1, 4)],
    [Plus49, Ws, Open, Digits(2, 4), Close, Ws, Digits(2, 4), WsOrHyphen, Digits(1, 4), WsOrHyphen, Digits(1, 4)],
    [Plus49, Ws, Digits(2, 4), Ws, Digits(2, 4), Ws, Digits(1, 4), WsOrHyphen, Digits(1, 4)],
    [Zero, Digits(2, 4), WsOrHyphen, Digits(2, 4), WsOrHyphen, Digits(1, 4), WsOrHyphen, Digits(1, 4)],
    [Zero, Digits(2, 4), Ws, Digits(2, 4), Ws, Digits(1, 4), WsOrHyphen, Digits(1, 4)],
    [Zero, Digits(2, 4), WsOrHyphen, Digits(2, 4), WsOrHyphen, Digits(1, 4)],
    [Plus49, Ws, Open, Digits(2, 4), Close, Ws, Digits(2, 4), Ws, Digits(1, 4)],
    [Open, Digits(2, 4), Close, Ws, Digits(2, 4), Ws, Digits(1, 4)],
    [Digits(2, 4), Ws, Lit("/"), Ws, Digits(2, 4), Ws, Digits(1, 4)],
    [Lit("0800"), WsOrHyphen, Digits(3, 4), WsOrHyphen, Digits(3, 4)],
    [Plus49, Ws, Digits(2, 4), Ws, Digits(3, 4), Ws, Digits(3, 4)],
    [Zero, Digits(2, 4), Ws, Digits(3, 4), Ws, Digits(3, 4)],
    [Plus49, WsOrHyphen, Digits(2, 4), WsOrHyphen, Digits(3, 4), WsOrHyphen, Digits(3, 4)],
    [Zero, Digits(2, 4), WsOrHyphen, Digits(3, 4), WsOrHyphen, Digits(3, 4)],
    [Lit("01"), Repeat(OneOf("567"), 1, 1), Digits(1, 1), WsOrHyphen, Digits(3, 4), WsOrHyphen, Digits(3, 4)]
  ]

  /** The validation loop from pattern `i` on: tries each pattern in turn and stops at the first match. */
  predicate SearchFrom(s: string, i: nat)
    requires i <= |Library|
    decreases |Library| - i
  {
    i < |Library| && (Search(Library[i], s) || SearchFrom(s, i + 1))
  }

  /** Validation as the finder performs it: some library pattern's `re.match` succeeds. */
  predicate SearchLibrary(s: string) {
    SearchFrom(s, 0)
  }

  /** Some prefix of `s` is in the language of some library pattern. */
  ghost predicate MatchesLibrary(s: string) {
    MatchesFrom(s, 0)
  }

  /** Some prefix of `s` is in the language of a library pattern numbered `i` or later. */
  ghost predicate MatchesFrom(s: string, i: nat)
    requires i <= |Library|
    decreases |Library| - i
  {
    i < |Library| && (PrefixMatches(Library[i], s) || MatchesFrom(s, i + 1))
  }

  lemma {:induction false} MatchesFromIff(s: string, i: nat)
    requires i <= |Library|
    ensures MatchesFrom(s, i) <==> exists k :: i <= k < |Library| && PrefixMatches(Library[k], s)
    decreases |Library| - i
  {
    if i < |Library| {
      MatchesFromIff(s, i + 1);
    }
  }

  /** `MatchesLibrary` is the existence of a library pattern that prefix-matches. */
  lemma MatchesLibraryIff(s: string)
    ensures MatchesLibrary(s) <==> exists i :: 0 <= i < |Library| && PrefixMatches(Library[i], s)
  {
    MatchesFromIff(s, 0);
  }

  /** The loop from pattern `i` on succeeds exactly when a pattern from `i` on prefix-matches. */
  lemma {:induction false} SearchFromIff(s: string, i: nat)
    requires i <= |Library|
    ensures SearchFrom(s, i) <==> MatchesFrom(s, i)
    decreases |Library| - i
  {
    if i < |Library| {
      SearchIff(Library[i], s);
      SearchFromIff(s, i + 1);
    }
  }

  lemma LibrarySearchIff(s: string)
    ensures SearchLibrary(s) <==> MatchesLibrary(s)
  {
    SearchFromIff(s, 0);
  }

  /** The characters library patterns are written over: digits, whitespace and `+ - ( ) /`. */
  predicate PhoneChar(ch: char) {
    IsDigit(ch) || IsSpace(ch) || ch == '+' || ch == '-' || ch == '(' || ch == ')' || ch == '/'
  }

  predicate PhoneText(s: string) {
    forall k :: 0 <= k < |s| ==> PhoneChar(s[k])
  }

  predicate ClassOverPhoneChars(c: CharClass) {
    match c
    case OneOf(m) => forall i :: 0 <= i < |m| ==> PhoneChar(m[i])
    case _ => true
  }

  predicate AtomOverPhoneChars(a: Atom) {
    match a
    case Lit(t) => forall i :: 0 <= i < |t| ==> PhoneChar(t[i])
    case Repeat(c, _, _) => ClassOverPhoneChars(c)
    case Star(c) => ClassOverPhoneChars(c)
  }

  /** A pattern built from phone-character atoms only matches phone characters. */
  lemma {:induction false} MatchesOverPhoneChars(p: Pattern, s: string)
    requires forall i :: 0 <= i < |p| ==> AtomOverPhoneChars(p[i])
    requires Matches(p, s)
    ensures PhoneText(s)
    decreases |p|
  {
    if |p| > 0 {
      var k :| 0 <= k <= |s| && AtomMatches(p[0], s[..k]) && Matches(p[1..], s[k..]);
      MatchesOverPhoneChars(p[1..], s[k..]);
      assert PhoneText(s[k..]);
      forall i | 0 <= i < |s| ensures PhoneChar(s[i]) {
        if i < k {
          assert s[..k][i] == s[i];
        } else {
          assert s[k..][i - k] == s[i];
        }
      }
    }
  }

  /** A pattern that cannot match the empty string and is written over phone characters. */
  predicate WellShaped(p: Pattern) {
    && |p| > 0
    && !AtomMatches(p[0], "")
    && forall j :: 0 <= j < |p| ==> AtomOverPhoneChars(p[j])
  }

  lemma LibraryShape()
    ensures forall i :: 0 <= i < |Library| ==> WellShaped(Library[i])
  {
  }

  /** A whole match of a library pattern (what `re.findall` returns) consists of phone characters. */
  lemma LibraryMatchOverPhoneChars(i: nat, s: string)
    requires i < |Library| && Matches(Library[i], s)
    ensures PhoneText(s)
  {
    LibraryShape();
    MatchesOverPhoneChars(Library[i], s);
  }

  /** Validation never accepts the empty string. */
  lemma LibraryMatchNonEmpty(s: string)
    requires MatchesLibrary(s)
    ensures |s| > 0
  {
    LibraryShape();
    MatchesLibraryIff(s);
    var i :| 0 <= i < |Library| && PrefixMatches(Library[i], s);
    var m :| 0 <= m <= |s| && Matches(Library[i], s[..m]);
  }
}

=== FILE: scenarios.dfy ===
/**
 * Worked examples: concrete inputs whose cleaned form follows from the
 * general lemmas, including the trunk rewrite that inserts no space, the
 * cleaning that is not idempotent and the fax number that is reported.
 */
module Scenarios {
  import opened Optional
  import opened Text
  import opened Patterns
  import opened Normalizer
  import opened Extractor
  import opened Selector

  /** Label deletion and stripping leave tidy phone-character text alone. */
  lemma NormalizeShortcut(s: string)
    requires PhoneText(s) && Trimmed(s)
    ensures Normalize(s) == CollapseSpaces(CollapseTrunk(s))
  {
    PhoneTextHasNoLabel(s);
    StripLabelsFixpoint(s);
    StripTrimmed(s);
  }

  /** Text without '+' passes through the trunk rewrite unchanged. */
  lemma PlusFreeTrunk(a: string)
    requires forall k :: 0 <= k < |a| ==> a[k] != '+'
    ensures CollapseTrunk(a) == a
  {
    CollapseTrunkPlusFree(a, "");
    assert a + "" == a;
  }

  /** Digits and the punctuation of phone numbers other than '/'. */
  predicate CompactChar(ch: char) {
    IsDigit(ch) || ch == '+' || ch == '-' || ch == '(' || ch == ')'
  }

  lemma CompactNotSpace(ch: char)
    requires CompactChar(ch)
    ensures !IsSpace(ch)
  {
  }

  predicate Compact(s: string) {
    forall k :: 0 <= k < |s| ==> CompactChar(s[k])
  }

  /** A compact character follows position `k`. */
  predicate CompactAfter(s: string, k: nat) {
    k + 1 < |s| && CompactChar(s[k + 1])
  }

  /** Non-empty compact words, separated by single plain spaces. */
  predicate Plain(s: string) {
    && (|s| == 0 || (CompactChar(s[0]) && CompactChar(s[|s| - 1])))
    && forall k :: 0 <= k < |s| ==> CompactChar(s[k]) || (s[k] == ' ' && CompactAfter(s, k))
  }

  lemma CompactIsPlain(s: string)
    requires Compact(s)
    ensures Plain(s)
  {
  }

  /** Two plain texts joined by one space form a plain text. */
  lemma PlainJoin(a: string, b: string)
    requires Plain(a) && Plain(b) && |a| > 0 && |b| > 0
    ensures Plain(a + " " + b)
  {
    var s := a + " " + b;
    forall k | 0 <= k < |s| ensures CompactChar(s[k]) || (s[k] == ' ' && CompactAfter(s, k)) {
      if k < |a| {
        assert s[k] == a[k];
        if k + 1 < |a| {
          assert s[k + 1] == a[k + 1];
        }
      } else if k > |a| {
        assert s[k] == b[k - |a| - 1];
        if k + 1 < |s| {
          assert s[k + 1] == b[k - |a|];
        }
      } else {
        assert s[k + 1] == b[0];
      }
    }
  }

  /** Plain text is trimmed phone text. */
  lemma PlainIsPhoneText(s: string)
    requires Plain(s)
    ensures PhoneText(s) && Trimmed(s)
  {
    if |s| > 0 {
      CompactNotSpace(s[0]);
      CompactNotSpace(s[|s| - 1]);
    }
    forall k | 0 <= k < |s| ensures PhoneChar(s[k]) {
      assert CompactChar(s[k]) || s[k] == ' ';
    }
  }

  /** Plain text has no whitespace run to collapse. */
  lemma PlainCollapse(s: string)
    requires Plain(s)
    ensures CollapseSpaces(s) == s
  {
    assert SingleSpaced(s) by {
      forall i | 0 <= i < |s| && IsSpace(s[i]) ensures s[i] == ' ' && (i + 1 < |s| ==> !IsSpace(s[i + 1])) {
        if CompactChar(s[i]) {
          CompactNotSpace(s[i]);
        } else {
          CompactNotSpace(s[i + 1]);
        }
      }
    }
    CollapseSpacesFixpoint(s);
  }

  /** Normalising a text whose only rewrite is the trunk token. */
  lemma PlainNormalize(s: string, r: string)
    requires Plain(s) && Plain(r) && CollapseTrunk(s) == r
    ensures Normalize(s) == r
  {
    PlainIsPhoneText(s);
    PlainCollapse(r);
    NormalizeShortcut(s);
  }

  /** A `+49(0)` token at the start becomes `+49`. */
  lemma CollapseTrunkToken(t: string)
    ensures CollapseTrunk("+49(0)" + t) == "+49" + CollapseTrunk(t)
  {
    var s := "+49(0)" + t;
    assert s[..3] == "+49";
    assert s[3..][0] == '(';
    assert s[3..6] == "(0)";
    assert s[6..] == t;
  }

  /** The first library pattern, `\+49[\s\-]*\d{2,4}[\s\-]*\d{2,4}[\s\-]*\d{1,4}[\s\-]*\d{1,4}`. */
  const International: Pattern :=
    [Plus49, WsOrHyphen, Digits(2, 4), WsOrHyphen, Digits(2, 4), WsOrHyphen, Digits(1, 4), WsOrHyphen, Digits(1, 4)]

  lemma InternationalInLibrary()
    ensures Library[0] == International
  {
  }

  /** A phone whose normal form starts with a match of a library pattern is kept as that form. */
  lemma CleanOfMatch(phone: string, i: nat, r: string, m: nat)
    requires phone != "" && Normalize(phone) == r
    requires i < |Library| && m <= |r| && Matches(Library[i], r[..m])
    ensures Clean(phone) == Some(r)
  {
    assert PrefixMatches(Library[i], r);
    MatchesLibraryIff(r);
  }

  /** A phone whose normal form is a whole match of a library pattern is kept as that form. */
  lemma CleanOfFullMatch(phone: string, i: nat, r: string)
    requires phone != "" && Normalize(phone) == r
    requires i < |Library| && Matches(Library[i], r)
    ensures Clean(phone) == Some(r)
  {
    assert r[..|r|] == r;
    CleanOfMatch(phone, i, r, |r|);
  }

  /** The twelfth library pattern, `0\d{2,4}\s*\d{3,4}\s*\d{3,4}`. */
  const Landline: Pattern := [Zero, Digits(2, 4), Ws, Digits(3, 4), Ws, Digits(3, 4)]

  lemma LandlineInLibrary()
    ensures Library[11] == Landline
  {
  }

  /** `+49721-91225-35` lies in the language of the first library pattern. */
  lemma TrunkExampleMatches()
    ensures Matches(International, "+49721-91225-35")
  {
    var pieces := ["+49", "", "721", "-", "9122", "", "5", "-", "35"];
    assert ConcatFrom(pieces, 0) == "+49721-91225-35";
    forall i | 0 <= i < |pieces| ensures AtomMatches(International[i], pieces[i]) {
      // One branch per piece, so that each atom is checked against its own literal piece.
      if i == 0 {
      } else if i == 1 {
      } else if i == 2 {
      } else if i == 3 {
      } else if i == 4 {
      } else if i == 5 {
      } else if i == 6 {
      } else if i == 7 {
      } else {
      }
    }
    MatchesPieces(International, pieces, 0);
    assert International[0..] == International;
  }

  /** The `+49(0)` rewrite applied to the international number of the pattern library's comments. */
  lemma TrunkExampleCollapse()
    ensures CollapseTrunk("+49(0)721-91225-35") == "+49721-91225-35"
  {
    var tail := "721-91225-35";
    assert "+49(0)721-91225-35" == "+49(0)" + tail;
    assert "+49721-91225-35" == "+49" + tail;
    assert forall k :: 0 <= k < |tail| ==> tail[k] != '+';
    PlusFreeTrunk(tail);
    CollapseTrunkToken(tail);
  }

  /** The trunk zero disappears together with the space after it. */
  lemma TrunkExampleNormalize()
    ensures Normalize("+49(0)721-91225-35") == "+49721-91225-35"
  {
    var s, r := "+49(0)721-91225-35", "+49721-91225-35";
    assert Compact(s) && Compact(r);
    CompactIsPlain(s);
    CompactIsPlain(r);
    TrunkExampleCollapse();
    PlainNormalize(s, r);
  }

  /** The rewrite deletes `(0)` and inserts no space: `+49(0)721-91225-35` cleans to `+49721-91225-35`. */
  lemma TrunkExample()
    ensures Clean("+49(0)721-91225-35") == Some("+49721-91225-35")
  {
    TrunkExampleNormalize();
    TrunkExampleMatches();
    InternationalInLibrary();
    CleanOfFullMatch("+49(0)721-91225-35", 0, "+49721-91225-35");
  }

  /**
   * Whitespace between `+49` and `(0)` goes with the token: text such as
   * `+49 (0)721`, with no further `+`, becomes `+49721`.
   */
  lemma SpacedTrunkRewrite(s: string)
    requires 7 <= |s| && s[..3] == "+49" && s[3..4] == " " && s[4..7] == "(0)"
    requires forall k :: 7 <= k < |s| ==> s[k] != '+'
    ensures CollapseTrunk(s) == "+49" + s[7..]
  {
    assert TrunkStarts(s, 1);
    TrunkTokenDeleted(s, 1);
    assert s[7..] == s[7..] + "";
    CollapseTrunkPlusFree(s[7..], "");
  }

  /** A label after other text is deleted as well: `0tel:` becomes `0`. */
  lemma LabelAfterTextExample()
    ensures StripLabels("0tel:") == "0"
  {
    assert "0tel:" == "0" + "tel:" && "tel:" == "tel:" + "";
    StripLabelsCopy("0", "tel:");
    TelIsLabel();
    LabelTokenDeleted("tel:", "", 0);
  }

  lemma TelIsLabel()
    ensures Lower("tel:") == Labels[0]
  {
    var l := "tel:";
    assert LowerChar(l[0]) == 't' && LowerChar(l[1]) == 'e' && LowerChar(l[2]) == 'l' && LowerChar(l[3]) == ':';
  }

  /** `089 1234567` starts with a match of the twelfth library pattern. */
  lemma LandlineMatches()
    ensures Matches(Landline, "089 1234567")
  {
    var pieces := ["0", "89", " ", "123", "", "4567"];
    assert ConcatFrom(pieces, 0) == "089 1234567";
    forall i | 0 <= i < |pieces| ensures AtomMatches(Landline[i], pieces[i]) {
      // One branch per piece, so that each atom is checked against its own literal piece.
      if i == 0 {
      } else if i == 1 {
      } else if i == 2 {
      } else if i == 3 {
      } else if i == 4 {
      } else {
      }
    }
    MatchesPieces(Landline, pieces, 0);
    assert Landline[0..] == Landline;
  }

  /** A `+49(0)` token after text without '+' is the first one rewritten. */
  lemma CollapseTrunkAfter(head: string, t: string)
    requires forall k :: 0 <= k < |head| ==> head[k] != '+'
    ensures CollapseTrunk(head + ("+49(0)" + t)) == head + ("+49" + CollapseTrunk(t))
  {
    CollapseTrunkPlusFree(head, "+49(0)" + t);
    CollapseTrunkToken(t);
  }

  /** One pass removes only the `(0)` right after `+49`... */
  lemma FirstTrunkCollapse()
    ensures CollapseTrunk("089 1234567 +49(0)(0)") == "089 1234567 +49(0)"
  {
    var head := "089 1234567 ";
    assert forall k :: 0 <= k < |head| ==> head[k] != '+';
    assert forall k :: 0 <= k < |"(0)"| ==> "(0)"[k] != '+';
    assert "089 1234567 +49(0)(0)" == head + ("+49(0)" + "(0)");
    assert "089 1234567 +49(0)" == head + ("+49" + "(0)");
    CollapseTrunkAfter(head, "(0)");
    PlusFreeTrunk("(0)");
  }

  /** ... so a second pass finds a new token to remove. */
  lemma SecondTrunkCollapse()
    ensures CollapseTrunk("089 1234567 +49(0)") == "089 1234567 +49"
  {
    var head := "089 1234567 ";
    assert forall k :: 0 <= k < |head| ==> head[k] != '+';
    assert "089 1234567 +49(0)" == head + ("+49(0)" + "");
    assert "089 1234567 +49" == head + ("+49" + "");
    CollapseTrunkAfter(head, "");
  }

  /** `089 1234567 ` followed by `t`, for compact `t`, is plain. */
  lemma LandlineThenPlain(t: string)
    requires Compact(t) && |t| > 0
    ensures Plain("089 1234567 " + t)
  {
    assert "089 1234567 " + t == "089" + " " + "1234567" + " " + t;
    assert Compact("089") && Compact("1234567");
    CompactIsPlain("089");
    CompactIsPlain("1234567");
    CompactIsPlain(t);
    PlainJoin("089", "1234567");
    PlainJoin("089 1234567", t);
  }

  /** Cleaning keeps the text after the second `(0)`... */
  lemma FirstClean()
    ensures Clean("089 1234567 +49(0)(0)") == Some("089 1234567 +49(0)")
  {
    var s, r := "089 1234567 +49(0)(0)", "089 1234567 +49(0)";
    assert s == "089 1234567 " + "+49(0)(0)" && r == "089 1234567 " + "+49(0)";
    assert r[..11] == "089 1234567";
    assert Compact("+49(0)(0)") && Compact("+49(0)");
    LandlineThenPlain("+49(0)(0)");
    LandlineThenPlain("+49(0)");
    FirstTrunkCollapse();
    PlainNormalize(s, r);
    LandlineMatches();
    LandlineInLibrary();
    CleanOfMatch(s, 11, r, 11);
  }

  /** ... and cleaning that result rewrites it once more. */
  lemma SecondClean()
    ensures Clean("089 1234567 +49(0)") == Some("089 1234567 +49")
  {
    var s, r := "089 1234567 +49(0)", "089 1234567 +49";
    assert s == "089 1234567 " + "+49(0)" && r == "089 1234567 " + "+49";
    assert r[..11] == "089 1234567";
    assert Compact("+49(0)") && Compact("+49");
    LandlineThenPlain("+49(0)");
    LandlineThenPlain("+49");
    SecondTrunkCollapse();
    PlainNormalize(s, r);
    LandlineMatches();
    LandlineInLibrary();
    CleanOfMatch(s, 11, r, 11);
  }

  /** `clean_phone_number` is not idempotent. */
  lemma CleanNotIdempotent()
    ensures exists phone, once :: Clean(phone) == Some(once) && Clean(once) != Some(once)
  {
    FirstClean();
    SecondClean();
    var phone, once := "089 1234567 +49(0)(0)", "089 1234567 +49(0)";
    assert Clean(once) != Some(once);
  }

  /** The fourteenth library pattern, `0\d{2,4}[\s\-]*\d{3,4}[\s\-]*\d{3,4}`. */
  const LandlineDashed: Pattern := [Zero, Digits(2, 4), WsOrHyphen, Digits(3, 4), WsOrHyphen, Digits(3, 4)]

  lemma LandlineDashedInLibrary()
    ensures Library[13] == LandlineDashed
  {
  }

  /** `089-123-9999` is a whole match of the fourteenth library pattern. */
  lemma FaxNumberMatches()
    ensures Matches(LandlineDashed, "089-123-9999")
  {
    var pieces := ["0", "89", "-", "123", "-", "9999"];
    assert ConcatFrom(pieces, 0) == "089-123-9999";
    forall i | 0 <= i < |pieces| ensures AtomMatches(LandlineDashed[i], pieces[i]) {
      // One branch per piece, so that each atom is checked against its own literal piece.
      if i == 0 {
      } else if i == 1 {
      } else if i == 2 {
      } else if i == 3 {
      } else if i == 4 {
      } else {
      }
    }
    MatchesPieces(LandlineDashed, pieces, 0);
    assert LandlineDashed[0..] == LandlineDashed;
  }

  /** `089-123-9999` is already clean. */
  lemma FaxNumberClean()
    ensures Clean("089-123-9999") == Some("089-123-9999")
  {
    var s := "089-123-9999";
    assert Compact(s);
    assert forall k :: 0 <= k < |s| ==> s[k] != '+';
    CompactIsPlain(s);
    PlusFreeTrunk(s);
    PlainNormalize(s, s);
    FaxNumberMatches();
    LandlineDashedInLibrary();
    CleanOfFullMatch(s, 13, s);
  }

  /**
   * A page reading `Fax: 089-123-9999` yields the structural candidate
   * `089-123-9999`, and the fax test, which sees only that candidate, lets
   * it through: the fax number is reported.
   */
  lemma FaxNumberReported()
    ensures "089-123-9999" in Extract([], ["089-123-9999"])
  {
    var structural := ["089-123-9999"];
    assert Compact(structural[0]);
    CompactIsPlain(structural[0]);
    PlainIsPhoneText(structural[0]);
    ExtractIsCleanedCandidates([], structural);
    FaxNumberClean();
    assert structural[0] in Candidates([], structural);
  }

  /** A landline and a mobile number: the landline is chosen whatever the set order. */
  lemma PrefersLandlineExample(order: seq<string>)
    requires IsEnumeration(order, ["089 1234567", "0151 1234567"])
    ensures SelectBest(["089 1234567", "0151 1234567"], order) == Some("089 1234567")
  {
    var phones := ["089 1234567", "0151 1234567"];
    assert phones[0][..2][1] == '8';
    assert phones[1][..2] == "01";
  }

  /** When every number is mobile, the first number of the iteration order is chosen. */
  lemma MobileFallbackExample(order: seq<string>)
    requires IsEnumeration(order, ["0151 1234567", "0171 7654321"])
    ensures |order| > 0 && SelectBest(["0151 1234567", "0171 7654321"], order) == Some(order[0])
  {
    var phones := ["0151 1234567", "0171 7654321"];
    assert phones[0][..2] == "01" && phones[1][..2] == "01";
    assert phones[0] in order;
  }
}

=== FILE: selector.dfy ===
/**
 * `select_best_phone`. The finder de-duplicates through a Python `set`,
 * whose iteration order is not specified; `order` stands for that order and
 * may be any listing of the distinct numbers.
 */
module Selector {
  import opened Optional
  import opened Seqs

  /** The finder's notion of a mobile number: it starts with "01". */
  predicate IsMobile(phone: string) {
    |phone| >= 2 && phone[..2] == "01"
  }

  /** `order` lists every distinct value of `phones` exactly once: a possible `list(set(phones))`. */
  predicate IsEnumeration(order: seq<string>, phones: seq<string>) {
    && NoDups(order)
    && (forall i :: 0 <= i < |order| ==> order[i] in phones)
    && (forall i :: 0 <= i < |phones| ==> phones[i] in order)
  }

  /** Every list of numbers has an iteration order: its values in order of first occurrence. */
  lemma EnumerationExists(phones: seq<string>)
    ensures IsEnumeration(Dedup(phones), phones)
  {
  }

  /** The first number of `order` that is not a mobile number, if any. */
  function FirstLandline(order: seq<string>): (r: Option<string>)
    ensures r.None? <==> forall i :: 0 <= i < |order| ==> IsMobile(order[i])
    ensures r.Some? ==> r.value in order && !IsMobile(r.value)
    ensures r.Some? ==> forall i :: 0 <= i < IndexOf(order, r.value) ==> IsMobile(order[i])
    decreases |order|
  {
    if |order| == 0 then None
    else if !IsMobile(order[0]) then Some(order[0])
    else FirstLandline(order[1..])
  }

  /**
   * `select_best_phone(phones)` when `list(set(phones))` yields `order`:
   * `None` for no numbers, otherwise the first landline number in that order,
   * or the first number when all are mobile.
   */
  function SelectBest(phones: seq<string>, order: seq<string>): (r: Option<string>)
    requires IsEnumeration(order, phones)
    ensures r.None? <==> |phones| == 0
    ensures r.Some? ==> r.value in phones
    ensures r.Some? && IsMobile(r.value) ==> forall i :: 0 <= i < |phones| ==> IsMobile(phones[i])
    ensures r.Some? ==> forall i :: 0 <= i < IndexOf(order, r.value) ==> IsMobile(order[i])
    ensures r.Some? && IsMobile(r.value) ==> |order| > 0 && r.value == order[0]
  {
    if |phones| == 0 then None
    else
      assert phones[0] in order;
      match FirstLandline(order)
      case Some(p) => Some(p)
      case None => Some(order[0])
  }

  /**
   * The numbers the selection can return over all iteration orders: exactly
   * the landline numbers when there is one, and every number otherwise.
   */
  lemma SelectOutcomes(phones: seq<string>, p: string)
    ensures (exists order :: IsEnumeration(order, phones) && SelectBest(phones, order) == Some(p))
            <==> p in phones && (!IsMobile(p) || forall i :: 0 <= i < |phones| ==> IsMobile(phones[i]))
  {
    if p in phones && (!IsMobile(p) || forall i :: 0 <= i < |phones| ==> IsMobile(phones[i])) {
      var order := Dedup([p] + phones);
      DedupHead(p, phones);
      assert IsEnumeration(order, phones) by {
        forall i | 0 <= i < |order| ensures order[i] in phones {
          assert order[i] in [p] + phones;
        }
        forall i | 0 <= i < |phones| ensures phones[i] in order {
          assert ([p] + phones)[i + 1] == phones[i];
        }
      }
      if !IsMobile(p) {
        assert FirstLandline(order) == Some(p);
      } else {
        assert FirstLandline(order) == None by {
          forall i | 0 <= i < |order| ensures IsMobile(order[i]) {
            var k :| 0 <= k < |phones| && phones[k] == order[i];
          }
        }
      }
      assert SelectBest(phones, order) == Some(p);
    }
  }
}

=== FILE: seqs.dfy ===
/**
 * Generic facts about sequences: duplicate freedom, first occurrences and
 * the order-preserving de-duplication that both the extractor's
 * "append unless already present" loop and the selector's enumeration use.
 */
module Seqs {
  import opened Optional

  /** No value occurs twice in `s`. */
  predicate NoDups<T(==)>(s: seq<T>) {
    forall i, j :: 0 <= i < j < |s| ==> s[i] != s[j]
  }

  /** Position of the first occurrence of `x` in `s`. */
  function IndexOf<T(==)>(s: seq<T>, x: T): (k: nat)
    requires x in s
    ensures k < |s| && s[k] == x
    ensures forall j :: 0 <= j < k ==> s[j] != x
  {
    if s[0] == x then 0 else 1 + IndexOf(s[1..], x)
  }

  /**
   * The distinct values of `s`, each kept at its first occurrence: the list
   * grown by walking `s` left to right and appending a value unless it is
   * already present.
   */
  function Dedup<T(==)>(s: seq<T>): (r: seq<T>)
    ensures NoDups(r)
    ensures forall i :: 0 <= i < |r| ==> r[i] in s
    ensures forall i :: 0 <= i < |s| ==> s[i] in r
    ensures |r| <= |s|
    decreases |s|
  {
    if |s| == 0 then []
    else
      var d := Dedup(s[..|s| - 1]);
      assert s == s[..|s| - 1] + [s[|s| - 1]];
      if s[|s| - 1] in d then d else d + [s[|s| - 1]]
  }

  /** A non-empty sequence is its front followed by its last element. */
  lemma SplitLast<T>(s: seq<T>)
    requires |s| > 0
    ensures s[..|s| - 1] + [s[|s| - 1]] == s
  {
  }

  /** Appending a value to the input appends it to the output unless it is already there. */
  lemma DedupSnoc<T>(s: seq<T>, x: T)
    ensures Dedup(s + [x]) == if x in Dedup(s) then Dedup(s) else Dedup(s) + [x]
  {
    assert (s + [x])[..|s|] == s;
  }

  /** Looking up a value that already occurs in a prefix gives the same position. */
  lemma {:induction false} IndexOfPrefix<T>(s: seq<T>, m: nat, x: T)
    requires m <= |s| && x in s[..m]
    ensures IndexOf(s, x) == IndexOf(s[..m], x)
  {
    if s[0] != x {
      assert s[1..][..m - 1] == s[..m][1..];
      IndexOfPrefix(s[1..], m - 1, x);
    }
  }

  /** Extending the input only appends to the de-duplicated list. */
  lemma {:induction false} DedupPrefix<T>(a: seq<T>, b: seq<T>)
    ensures Dedup(a) <= Dedup(a + b)
    decreases |b|
  {
    if |b| == 0 {
      assert a + b == a;
    } else {
      var b' := b[..|b| - 1];
      assert (a + b)[..|a + b| - 1] == a + b';
      DedupPrefix(a, b');
    }
  }

  /** The values of `d` appear in `d` in the order of their first occurrences in `s`. */
  predicate OrderedByFirst<T(==)>(s: seq<T>, d: seq<T>)
    requires forall i :: 0 <= i < |d| ==> d[i] in s
  {
    forall i, j :: 0 <= i < j < |d| ==> IndexOf(s, d[i]) < IndexOf(s, d[j])
  }

  /** The de-duplicated list keeps the order of first occurrences in the input. */
  lemma {:induction false} DedupOrder<T>(s: seq<T>)
    ensures OrderedByFirst(s, Dedup(s))
    decreases |s|
  {
    if |s| > 0 {
      var front, x := s[..|s| - 1], s[|s| - 1];
      DedupOrder(front);
      SplitLast(s);
      DedupOrderSnoc(front, x);
    }
  }

  /** Appending a value keeps the de-duplicated list in first-occurrence order. */
  lemma DedupOrderSnoc<T>(front: seq<T>, x: T)
    requires OrderedByFirst(front, Dedup(front))
    ensures OrderedByFirst(front + [x], Dedup(front + [x]))
  {
    DedupSnoc(front, x);
    OrderSnoc(front, x, Dedup(front), Dedup(front + [x]));
  }

  /** First-occurrence order in `front` survives appending `x`. */
  lemma OrderSnoc<T>(front: seq<T>, x: T, d: seq<T>, r: seq<T>)
    requires forall i :: 0 <= i < |d| ==> d[i] in front
    requires forall i :: 0 <= i < |front| ==> front[i] in d
    requires forall i, j :: 0 <= i < j < |d| ==> IndexOf(front, d[i]) < IndexOf(front, d[j])
    requires r == if x in d then d else d + [x]
    ensures forall i, j :: 0 <= i < j < |r| ==> IndexOf(front + [x], r[i]) < IndexOf(front + [x], r[j])
  {
    var s := front + [x];
    var n := |front|;
    assert s[..n] == front;
    forall i, j | 0 <= i < j < |d| ensures IndexOf(s, d[i]) < IndexOf(s, d[j]) {
      PrefixOrder(s, n, d[i], d[j]);
    }
    if x !in d {
      OrderNew(s, d, r);
    }
  }

  /** Two values of a prefix keep their relative first-occurrence order in the whole. */
  lemma PrefixOrder<T>(s: seq<T>, n: nat, x: T, y: T)
    requires n <= |s| && x in s[..n] && y in s[..n]
    requires IndexOf(s[..n], x) < IndexOf(s[..n], y)
    ensures IndexOf(s, x) < IndexOf(s, y)
  {
    IndexOfPrefix(s, n, x);
    IndexOfPrefix(s, n, y);
  }

  /** A value new at the end of `s` comes after every value of its front. */
  lemma OrderNew<T>(s: seq<T>, d: seq<T>, r: seq<T>)
    requires |s| > 0 && s[|s| - 1] !in d && r == d + [s[|s| - 1]]
    requires forall i :: 0 <= i < |d| ==> d[i] in s[..|s| - 1]
    requires forall i :: 0 <= i < |s| - 1 ==> s[i] in d
    requires forall i, j :: 0 <= i < j < |d| ==> IndexOf(s, d[i]) < IndexOf(s, d[j])
    ensures forall i, j :: 0 <= i < j < |r| ==> IndexOf(s, r[i]) < IndexOf(s, r[j])
  {
    var n := |s| - 1;
    FirstAtEnd(s, n);
    forall i, j | 0 <= i < j < |r| ensures IndexOf(s, r[i]) < IndexOf(s, r[j]) {
      assert r[i] == d[i];
      if j < |d| {
        assert r[j] == d[j];
      } else {
        IndexOfPrefix(s, n, d[i]);
      }
    }
  }

  /** A value missing from the front of `s` first occurs at the end. */
  lemma FirstAtEnd<T>(s: seq<T>, n: nat)
    requires n == |s| - 1
    requires forall i :: 0 <= i < n ==> s[i] != s[n]
    ensures IndexOf(s, s[n]) == n
  {
  }

  /** Values occurring in `a` come before values occurring only in `b`. */
  lemma DedupConcatOrder<T>(a: seq<T>, b: seq<T>, i: nat, j: nat)
    requires i < |Dedup(a + b)| && j < |Dedup(a + b)|
    requires Dedup(a + b)[i] in a && Dedup(a + b)[j] !in a
    ensures i < j
  {
    var r := Dedup(a + b);
    var front := Dedup(a);
    DedupPrefix(a, b);
    var p := IndexOf(front, r[i]);
    assert r[p] == r[i];
  }

  /** A list without duplicates is its own de-duplication. */
  lemma {:induction false} DedupOfNoDups<T>(s: seq<T>)
    requires NoDups(s)
    ensures Dedup(s) == s
    decreases |s|
  {
    if |s| > 0 {
      DedupOfNoDups(s[..|s| - 1]);
      assert s == s[..|s| - 1] + [s[|s| - 1]];
    }
  }

  /** De-duplicating twice is de-duplicating once. */
  lemma DedupIdempotent<T>(s: seq<T>)
    ensures Dedup(Dedup(s)) == Dedup(s)
  {
    DedupOfNoDups(Dedup(s));
  }

  /** De-duplicating a list headed by `x` keeps `x` in front. */
  lemma DedupHead<T>(x: T, s: seq<T>)
    ensures |Dedup([x] + s)| > 0 && Dedup([x] + s)[0] == x
  {
    assert Dedup([x]) == [x] by {
      assert [x][..0] == [];
    }
    DedupPrefix([x], s);
  }

  /** The values `f` yields on the elements of `s`, in order, skipping `None`. */
  function FilterMap<A, B>(f: A -> Option<B>, s: seq<A>): seq<B>
    decreases |s|
  {
    if |s| == 0 then []
    else FilterMap(f, s[..|s| - 1]) + OptionToSeq(f(s[|s| - 1]))
  }

  function OptionToSeq<B>(o: Option<B>): seq<B> {
    match o
    case Some(v) => [v]
    case None => []
  }

  lemma {:induction false} FilterMapConcat<A, B>(f: A -> Option<B>, a: seq<A>, b: seq<A>)
    ensures FilterMap(f, a + b) == FilterMap(f, a) + FilterMap(f, b)
    decreases |b|
  {
    if |b| == 0 {
      assert a + b == a;
    } else {
      assert (a + b)[..|a + b| - 1] == a + b[..|b| - 1];
      FilterMapConcat(f, a, b[..|b| - 1]);
    }
  }

  lemma {:induction false} FilterMapLength<A, B>(f: A -> Option<B>, s: seq<A>)
    ensures |FilterMap(f, s)| <= |s|
    decreases |s|
  {
    if |s| > 0 {
      FilterMapLength(f, s[..|s| - 1]);
    }
  }

  lemma FilterMapStep<A, B>(f: A -> Option<B>, s: seq<A>, i: nat)
    requires i < |s|
    ensures FilterMap(f, s[..i + 1]) == FilterMap(f, s[..i]) + OptionToSeq(f(s[i]))
  {
    assert s[..i + 1][..i] == s[..i];
  }

  /** A value is produced exactly when `f` yields it on some element. */
  lemma FilterMapMember<A, B>(f: A -> Option<B>, s: seq<A>, v: B)
    ensures v in FilterMap(f, s) <==> exists k :: 0 <= k < |s| && f(s[k]) == Some(v)
  {
    if v in FilterMap(f, s) {
      FilterMapFrom(f, s, v);
    }
    if exists k :: 0 <= k < |s| && f(s[k]) == Some(v) {
      var k :| 0 <= k < |s| && f(s[k]) == Some(v);
      FilterMapHas(f, s, k);
    }
  }

  lemma {:induction false} FilterMapHas<A, B>(f: A -> Option<B>, s: seq<A>, k: nat)
    requires k < |s| && f(s[k]).Some?
    ensures f(s[k]).value in FilterMap(f, s)
    decreases |s|
  {
    var n := |s| - 1;
    if k < n {
      assert s[..n][k] == s[k];
      FilterMapHas(f, s[..n], k);
    }
  }

  lemma {:induction false} FilterMapFrom<A, B>(f: A -> Option<B>, s: seq<A>, v: B)
    requires v in FilterMap(f, s)
    ensures exists k :: 0 <= k < |s| && f(s[k]) == Some(v)
    decreases |s|
  {
    var n := |s| - 1;
    if v in FilterMap(f, s[..n]) {
      FilterMapFrom(f, s[..n], v);
      var k :| 0 <= k < n && f(s[..n][k]) == Some(v);
      assert s[k] == s[..n][k];
    } else {
      assert f(s[n]) == Some(v);
    }
  }
}

=== FILE: text.dfy ===
/**
 * Characters and string helpers with Python's meaning: the whitespace
 * accepted by `str.isspace`, `str.strip()` and the regex class `\s`, the
 * decimal digits `\d` (restricted to ASCII), `str.lower()` and `in`.
 */
module Text {

  predicate IsDigit(c: char) {
    '0' <= c <= '9'
  }

  /** Every character Python treats as whitespace. */
  predicate IsSpace(c: char) {
    || c == ' '
    || '\t' <= c <= '\r'
    || '\U{1C}' <= c <= '\U{1F}'
    || c == '\U{85}' || c == '\U{A0}' || c == '\U{1680}'
    || '\U{2000}' <= c <= '\U{200A}'
    || c == '\U{2028}' || c == '\U{2029}' || c == '\U{202F}' || c == '\U{205F}'
    || c == '\U{3000}'
  }

  /** Lower-case mapping of the ASCII and Latin-1 capital letters. */
  function LowerChar(c: char): char {
    if 'A' <= c <= 'Z' || ('\U{C0}' <= c <= '\U{DE}' && c != '\U{D7}') then (c as int + 32) as char else c
  }

  function Lower(s: string): (r: string)
    ensures |r| == |s|
    ensures forall i :: 0 <= i < |s| ==> r[i] == LowerChar(s[i])
  {
    seq(|s|, i requires 0 <= i < |s| => LowerChar(s[i]))
  }

  /** `w` occurs in `s` starting at position `i`. */
  predicate OccursAt(s: string, w: string, i: int) {
    0 <= i && i + |w| <= |s| && s[i..i + |w|] == w
  }

  /** Python's `w in s` for strings. */
  predicate Contains(s: string, w: string) {
    exists i :: 0 <= i <= |s| && OccursAt(s, w, i)
  }

  predicate AllSpace(w: string) {
    forall i :: 0 <= i < |w| ==> IsSpace(w[i])
  }

  /** Neither end of `s` is whitespace. */
  predicate Trimmed(s: string) {
    |s| == 0 || (!IsSpace(s[0]) && !IsSpace(s[|s| - 1]))
  }

  /** The first position at or after `i` that is not whitespace, or `|s|`. */
  function SkipSpaces(s: string, i: nat): (k: nat)
    requires i <= |s|
    ensures i <= k <= |s|
    ensures forall m :: i <= m < k ==> IsSpace(s[m])
    ensures k < |s| ==> !IsSpace(s[k])
    decreases |s| - i
  {
    if i < |s| && IsSpace(s[i]) then SkipSpaces(s, i + 1) else i
  }

  /** The end of `s[lo..j]` once trailing whitespace is cut off. */
  function SkipSpacesBack(s: string, lo: nat, j: nat): (k: nat)
    requires lo <= j <= |s|
    ensures lo <= k <= j
    ensures forall m :: k <= m < j ==> IsSpace(s[m])
    ensures lo < k ==> !IsSpace(s[k - 1])
    decreases j - lo
  {
    if lo < j && IsSpace(s[j - 1]) then SkipSpacesBack(s, lo, j - 1) else j
  }

  /** Python's `s.strip()`: the slice of `s` left once whitespace is cut off both ends. */
  function Strip(s: string): (r: string)
    ensures Trimmed(r)
    ensures exists i, j :: 0 <= i <= j <= |s| && r == s[i..j] && AllSpace(s[..i]) && AllSpace(s[j..])
  {
    var i := SkipSpaces(s, 0);
    var j := SkipSpacesBack(s, i, |s|);
    assert AllSpace(s[..i]) && AllSpace(s[j..]);
    s[i..j]
  }

  /** The non-whitespace characters of `s`, in order. */
  function NonSpace(s: string): (r: string)
    ensures |r| <= |s|
    decreases |s|
  {
    if |s| == 0 then ""
    else (if IsSpace(s[0]) then "" else [s[0]]) + NonSpace(s[1..])
  }

  lemma {:induction false} NonSpaceAppend(a: string, b: string)
    ensures NonSpace(a + b) == NonSpace(a) + NonSpace(b)
    decreases |a|
  {
    if |a| == 0 {
      assert a + b == b;
    } else {
      assert (a + b)[0] == a[0] && (a + b)[1..] == a[1..] + b;
      NonSpaceAppend(a[1..], b);
    }
  }

  lemma {:induction false} NonSpaceOfSpaces(w: string)
    requires AllSpace(w)
    ensures NonSpace(w) == ""
    decreases |w|
  {
    if |w| > 0 {
      NonSpaceOfSpaces(w[1..]);
    }
  }

  /** Stripping removes whitespace only. */
  lemma StripKeepsText(s: string)
    ensures NonSpace(Strip(s)) == NonSpace(s)
  {
    var i, j :| 0 <= i <= j <= |s| && Strip(s) == s[i..j] && AllSpace(s[..i]) && AllSpace(s[j..]);
    assert s == s[..i] + s[i..j] + s[j..];
    NonSpaceAppend(s[..i] + s[i..j], s[j..]);
    NonSpaceAppend(s[..i], s[i..j]);
    NonSpaceOfSpaces(s[..i]);
    NonSpaceOfSpaces(s[j..]);
  }

  /**
   * The maximal non-whitespace runs of `s`, in order: Python's `s.split()`
   * without arguments. A non-whitespace character joins the first word of the
   * rest when the rest starts with one, and is a word of its own otherwise.
   */
  function Words(s: string): (r: seq<string>)
    ensures |s| > 0 && !IsSpace(s[0]) ==> |r| > 0
    decreases |s|
  {
    if |s| == 0 then []
    else
      var rest := Words(s[1..]);
      if IsSpace(s[0]) then rest
      else if |s| > 1 && !IsSpace(s[1]) then [[s[0]] + rest[0]] + rest[1..]
      else [[s[0]]] + rest
  }

  /** Every word is non-empty, and a text starting with a non-whitespace character has that character first in its first word. */
  lemma {:induction false} WordsNonEmpty(s: string)
    ensures forall i :: 0 <= i < |Words(s)| ==> |Words(s)[i]| > 0
    ensures |s| > 0 && !IsSpace(s[0]) ==> |Words(s)| > 0 && Words(s)[0][0] == s[0]
    decreases |s|
  {
    if |s| > 0 {
      WordsNonEmpty(s[1..]);
    }
  }

  /** `s` starts with a non-whitespace character. */
  predicate StartsWord(s: string) {
    |s| > 0 && !IsSpace(s[0])
  }

  /** A non-whitespace character joins the first word of a rest that starts with one, and is a word of its own otherwise. */
  lemma WordsCons(c: char, t: string)
    requires !IsSpace(c)
    ensures StartsWord(t) ==> |Words(t)| > 0 && |Words(t)[0]| > 0 &&
                              Words([c] + t) == [[c] + Words(t)[0]] + Words(t)[1..]
    ensures !StartsWord(t) ==> Words([c] + t) == [[c]] + Words(t)
  {
    WordsNonEmpty(t);
    assert ([c] + t)[1..] == t && (|t| > 0 ==> ([c] + t)[1] == t[0]);
  }

  /** Whitespace holds no words. */
  lemma {:induction false} WordsOfSpaces(w: string)
    requires AllSpace(w)
    ensures Words(w) == []
    decreases |w|
  {
    if |w| > 0 {
      WordsOfSpaces(w[1..]);
    }
  }

  /** Leading whitespace does not change the words. */
  lemma {:induction false} WordsDropSpaces(s: string, j: nat)
    requires j <= |s| && AllSpace(s[..j])
    ensures Words(s) == Words(s[j..])
    decreases j
  {
    if 0 < j {
      assert s[..j][0] == s[0];
      assert s[1..][..j - 1] == s[..j][1..];
      WordsDropSpaces(s[1..], j - 1);
      assert s[1..][j - 1..] == s[j..];
    }
  }

  /** Words do not run across a whitespace boundary between `a` and `b`. */
  lemma {:induction false} WordsAppend(a: string, b: string)
    requires |a| == 0 || |b| == 0 || IsSpace(a[|a| - 1]) || IsSpace(b[0])
    ensures Words(a + b) == Words(a) + Words(b)
    decreases |a|
  {
    if |a| == 0 {
      assert a + b == b;
    } else {
      assert (a + b)[1..] == a[1..] + b;
      assert |a| > 1 ==> a[1..][|a| - 2] == a[|a| - 1];
      WordsAppend(a[1..], b);
      if !IsSpace(a[0]) {
        AppendHead(a[0], a[1..], b);
        assert a == [a[0]] + a[1..] && a + b == [a[0]] + (a[1..] + b);
      }
    }
  }

  /** The step of `WordsAppend` for a non-whitespace first character `c`. */
  lemma AppendHead(c: char, t: string, b: string)
    requires !IsSpace(c)
    requires |t| == 0 ==> |b| == 0 || IsSpace(b[0])
    requires Words(t + b) == Words(t) + Words(b)
    ensures Words([c] + (t + b)) == Words([c] + t) + Words(b)
  {
    assert |t| > 0 ==> (t + b)[0] == t[0];
    WordsCons(c, t);
    WordsCons(c, t + b);
    if StartsWord(t) {
      JoinFirst([c], Words(t), Words(b));
    } else {
      ConsAssoc([c], Words(t), Words(b));
    }
  }

  lemma ConsAssoc<T>(x: T, u: seq<T>, v: seq<T>)
    ensures [x] + (u + v) == ([x] + u) + v
  {
  }

  /** Extending the first element of `u` commutes with appending `v`. */
  lemma JoinFirst<T>(x: seq<T>, u: seq<seq<T>>, v: seq<seq<T>>)
    requires |u| > 0
    ensures [x + (u + v)[0]] + (u + v)[1..] == ([x + u[0]] + u[1..]) + v
  {
    assert (u + v)[1..] == u[1..] + v;
  }

  /** Stripping removes no word. */
  lemma StripKeepsWords(s: string)
    ensures Words(Strip(s)) == Words(s)
  {
    var i, j :| 0 <= i <= j <= |s| && Strip(s) == s[i..j] && AllSpace(s[..i]) && AllSpace(s[j..]);
    WordsDropSpaces(s, i);
    assert s[i..] == s[i..j] + s[j..];
    assert |s[j..]| == 0 || IsSpace(s[j..][0]) by {
      if j < |s| {
        assert AllSpace(s[j..]);
        assert IsSpace(s[j..][0]);
      }
    }
    WordsAppend(s[i..j], s[j..]);
    WordsOfSpaces(s[j..]);
  }

  /** Stripping a string without surrounding whitespace leaves it unchanged. */
  lemma StripTrimmed(s: string)
    requires Trimmed(s)
    ensures Strip(s) == s
  {
  }
}
